=== FILE: README.md ===
# A verified model of the assessment bot's submission pipeline

`main3.py` is a Telegram bot that grades spoken or written academic English.
A text message is sent to a chat-completion model together with a fixed
grading prompt. A voice message is first transcoded to mp3, transcribed by
Whisper, and archived on Google Drive under a name built from its first words;
the transcript is then graded like a text message. Every graded pair is
appended to the local JSON log `records.json`, which is then mirrored to
Drive. A long grade is sent as several Telegram messages.

This project models that pipeline in Dafny and proves what it guarantees:

- `wrappers.dfy`: `Option` and `Result`.
- `text.dfy` (module `Text`): the Python string primitives the bot relies on.
  These are the whitespace class shared by `str.isspace`, `split()`, `strip()`
  and the regular-expression class `\s`, plus `sep.join`, `s.split()` and `s.strip()`.
- `segmenter.dfy` (module `Segmenter`): `send_long_message`, together with an
  exact model of `str.splitlines(keepends=True)` (every line boundary Python
  recognises, with "\r\n" as one boundary).
- `filenames.dfy` (module `FileNames`): `sanitize_filename`, the name of an
  archived voice recording, and `os.path.basename`.
- `interaction_log.dfy` (module `InteractionLog`): `log_interaction` on the local file.
- `drive.dfy` (module `Drive`): `find_file_on_drive` and `upload_file_to_gdrive`
  over an abstract Drive store.
- `assessment.dfy` (module `Assessment`): the request `assess_text` sends and
  the stripped reply it returns.
- `pipeline.dfy` (module `Pipeline`): `cmd_start`, `handle_text` and
  `handle_voice` as traces of observable effects.

Every foreign call is an input to the model: Telegram, ffmpeg, Whisper, the
chat model, the clock, the file system and Drive. The input says what the
call returns, or whether it raises. An exception the handler does not catch
ends the trace and is recorded as the reason the run stopped.

Four facts about the code shape the model:

- `log_interaction` can raise out of a handler before the grade is sent.
  Reading the log catches only `JSONDecodeError` and `IOError`
  (`main3.py:328`), so a log that is not valid UTF-8 raises
  `UnicodeDecodeError`. Writing it back (`main3.py:335-336`) is not guarded
  at all. Opening with mode "w" empties the file first. A `json.dump` that
  raises therefore leaves a file that no longer parses. If the cut falls
  inside a multi-byte character of the Cyrillic text, the file no longer even
  decodes. Every later `handle_text` then raises on it
  (`Pipeline.TornLogBlocksText`), and so does every `handle_voice` that gets
  as far as the log (`Pipeline.TornLogBlocksVoice`). `cmd_start` never reads
  the log. A `close()` that raises leaves the full
  array on disk. `Pipeline.TailAbort`, `Pipeline.TextAbortSilent` and
  `Pipeline.VoiceAbortAfterTranscript` state what such a run leaves behind.
- The transcript is stripped (`main3.py:414`) before it is shown, used for
  the file name and graded.
- `send_long_message` sends an empty first chunk whenever the first line
  alone exceeds the limit (`Segmenter.FirstChunkEmpty`). So a
  9000-character reply with no line break goes out as `["", text]`
  (`Segmenter.OneLongLine`). Three or more messages are guaranteed only when
  no line is over the limit (`Segmenter.NineThousandCharacters`).
- Uploads run synchronously inside the handler (`main3.py:338-342`,
  `432-435`). The mp3 is uploaded before the chat request, and the log
  before the grade is sent.

## Model

| member | source | states |
|---|---|---|
| Text.Words | main3.py:420 | `str.split()` with no arguments: every word is a non-empty run without whitespace; the words run together are exactly the input's non-whitespace characters, in order; the list is empty exactly when the input is blank |
| Text.WordsSplitOff | main3.py:420 | `split()` one word at a time: leading whitespace is skipped, and a whole word followed by whitespace or by the end comes out first, before the words of the rest. With the blank case of `Text.Words`, this fixes the result for every input |
| Text.WordsOfJoin | main3.py:420 | splitting words that were joined by one space gives back the same words |
| Text.Join | main3.py:420 | `sep.join(ss)`: empty for no strings; otherwise as long as the strings together plus one separator between each two, starting with the first string |
| Text.JoinSnoc | main3.py:420 | appending a string to a non-empty list adds one separator and that string to the join; with the joins of no string and of one string this fixes where every separator goes |
| Text.JoinWithoutSeparator | main3.py:420 | reference definition: joining with the empty separator is `"".join`, the strings run together |
| Text.Take | main3.py:420 | the slice `[:n]`: the first `n` elements, or all of them when there are fewer, unchanged and in order |
| Text.Trim | main3.py:309 | `s.strip(chars)`: neither end of the result is a stripped character; it is the part of the input right after the leading run of them, and only stripped characters follow it |
| Text.Strip | main3.py:302 | `str.strip()`: the result neither starts nor ends with whitespace; it is the part of the input that starts right after the leading whitespace; everything before and after it is whitespace |
| Text.StripBlank | main3.py:302 | `strip()` gives the empty string exactly for blank input |
| Segmenter.SplitLines | main3.py:354 | `splitlines(keepends=True)`: the lines run together give back the text; every line is non-empty and has no break except its own terminator; every line but the last is terminated; no "\r\n" is torn in two |
| Segmenter.SplitLinesUnique | main3.py:354 | the only list of lines of that shape for a text is `splitlines` of the text, so the contract above characterises it completely |
| Segmenter.Segment | main3.py:344-364 | for any limit, the chunks run together give back the text, and a text within the limit is its own single chunk |
| Segmenter.Pack | main3.py:352-361 | the chunks the loop builds, run together, are the partial chunk followed by all the remaining lines; no character is lost, added or reordered |
| Segmenter.SendLongMessage | main3.py:344-364 | the messages sent for a text run together give back the text; a text within `TELEGRAM_MESSAGE_LIMIT` goes out as the single message it is |
| Segmenter.PackGroups | main3.py:352-361 | the loop's chunks are groups of whole lines: chunk `i` is exactly the text of group `i`; the groups flatten to the lines in order; a chunk over the limit holds one line; a chunk was closed only because the next line would have pushed it past the limit |
| Segmenter.SegmentGroups | main3.py:344-364 | the same grouping for the whole of `send_long_message`, short texts included, against the lines of `splitlines` |
| Segmenter.ChunkBound | main3.py:355-357 | no line is ever cut: every chunk is within the limit or is a single line of the text |
| Segmenter.FirstChunkEmpty | main3.py:352-361 | at least one message is sent; the first message is empty exactly when the text is empty, or when the text is over the limit and its first line alone is too |
| Segmenter.LaterChunksNonEmpty | main3.py:355-361 | no message after the first is ever empty |
| Segmenter.ChunkCount | main3.py:344-364 | when no line exceeds the limit, no chunk does either, so at least length / limit messages are sent |
| Segmenter.OneLongLine | main3.py:352-361 | a reply over the limit with no line break goes out as two messages: an empty one, then the whole reply |
| Segmenter.NineThousandCharacters | main3.py:48 | with the limit of 4000, a 9000-character reply with no line over 4000 characters goes out as at least three messages |
| FileNames.Basename | main3.py:83 | `os.path.basename`: a suffix of the path with no "/", preceded by "/" unless it is the whole path |
| FileNames.BasenameOfJoin | main3.py:423 | the basename of `dir + "/" + name` is `name` when `name` has no "/" |
| FileNames.CollapseSpaces | main3.py:309 | `re.sub(r"\s+", "_", s)` gives the empty string exactly for the empty string |
| FileNames.CollapseChars | main3.py:308-309 | on filtered input, collapsing leaves only the kept letters and digits and "_": no whitespace survives |
| FileNames.CollapseInner | main3.py:309 | reference definition: a string that starts and ends with non-whitespace collapses to its words joined by "_" |
| FileNames.Sanitize | main3.py:304-309 | the result of `sanitize_filename` holds only the kept letters and digits and "_"; it has no whitespace, no "_" at either end, and never two "_" in a row |
| FileNames.SanitizeContent | main3.py:308-309 | `sanitize_filename` keeps every kept letter and digit of its input in order, and adds none |
| FileNames.SanitizeIsJoinOfWords | main3.py:304-309 | reference definition: `sanitize_filename(name)` equals `"_".join(filtered.split())`, where `filtered` is `name` with the removed class deleted |
| FileNames.SanitizeNotIdempotent | main3.py:304-309 | the filter does not keep "_", so a second pass deletes the separators the first one introduced: "a b" becomes "a_b", then "ab" |
| FileNames.FirstWords | main3.py:420 | the first words joined by "_" contain no whitespace, and are empty exactly when the transcript is blank |
| FileNames.VoiceFileName | main3.py:419-422 | the voice file name ends in ".mp3", everything before that is a kept letter or digit, and it has no "/" |
| FileNames.VoiceFileNameSpec | main3.py:419-422 | the mp3 name is the kept letters and digits of the first four words of the transcript, run together, then ".mp3"; the "_" used to join the words never survives; a blank transcript gives ".mp3" |
| FileNames.VoicePath | main3.py:419-423 | the archived recording's path has the mp3 name as its basename, so it is uploaded under that name |
| InteractionLog.NewRecord | main3.py:315-319 | the record holds the request and response unchanged, with the timestamp being the clock's ISO time followed by "Z" |
| InteractionLog.ReadExisting | main3.py:322-329 | reading an existing log raises only when it is not valid UTF-8; an array reads as its entries; an unreadable, malformed or non-array file reads as the empty list |
| InteractionLog.Append | main3.py:321-332 | the array to write ends with the new record; an existing array is kept in front of it; a missing, unreadable, malformed or non-array file leaves the record alone; an undecodable file raises |
| InteractionLog.LogInteraction | main3.py:321-336 | the local write succeeds exactly when the file is decodable and the write goes through, and then the file holds the appended array; otherwise the error escapes and says which of the two failed. An undecodable file or a failed `open` leaves the file as it was. A dump that fails after `open` leaves a file that does not parse, and one that does not decode exactly when the cut fell inside a multi-byte character. A failed `close()` leaves the appended array |
| InteractionLog.LogAllExtends | main3.py:321-336 | the log is append-only: logging records onto a readable array keeps the array and adds exactly those records, in order |
| InteractionLog.LogReplay | main3.py:321-336 | logging N records into a missing file, then reading it back, gives exactly those N records in insertion order |
| InteractionLog.HistoryLost | main3.py:322-329 | a file that cannot be read, is malformed, or is not an array loses its history: after one append it holds the new record only |
| InteractionLog.DumpFailureLosesHistory | main3.py:321-336 | a dump that fails after `open` at a character boundary raises, and the next successful call starts the array afresh: every earlier record is lost |
| InteractionLog.TornWriteBlocksLog | main3.py:321-336 | a dump cut inside a multi-byte character raises, and from then on every call raises `UnicodeDecodeError` and leaves the file as it is, however its own write would go |
| InteractionLog.CloseFailureKeepsRecord | main3.py:335-336 | a `close()` that raises after the array was written keeps the record: the next successful call extends the array that holds it |
| Drive.Find | main3.py:63-73 | an id is returned only for an object with that name, in that folder, not trashed; none is returned exactly when no object matches |
| Drive.FindUnique | main3.py:63-73 | when at most one object matches, the lookup returns it, whatever order Drive lists the matches in |
| Drive.Existing | main3.py:85-89 | only a log upload looks for an existing object; what it finds has the file's basename, is in the folder and is not trashed; it finds nothing only when nothing matches |
| Drive.Update | main3.py:95-104 | `files.update` with a body only: the object keeps its id, name, parents and trash state; no object is added or removed; nothing else changes |
| Drive.Create | main3.py:105-116 | `files.create`: exactly one object is added, under a fresh id, and every other object is left as it was |
| Drive.UploadUpdatesLog | main3.py:85-104 | a log upload with a match updates that object in place: same id, new content, no object added, nothing else touched |
| Drive.UploadCreates | main3.py:85-116 | a non-log upload, or a log upload without a match, creates one new object named after the file's basename, in the folder, with nothing else touched |
| Drive.LogUploadTwice | main3.py:75-116 | with a folder set that holds at most one log, uploading the log twice reaches the same object: the second upload updates what the first created or updated, and adds nothing |
| Drive.LogUploadKeepsUnique | main3.py:85-116 | a log upload never makes a second log in the folder: an update changes only content, and a create happens only when there is no log; with a folder set, the id returned is the log |
| Drive.OtherUploadKeepsUnique | main3.py:75-116 | an upload under another name never adds a match for a name |
| Drive.NonLogUploadTwice | main3.py:88-116 | uploading a non-log file twice makes two distinct new objects |
| Drive.Upload | main3.py:75-116 | any upload returns an object bearing the file's basename and the new content, removes nothing, and leaves every other object as it was |
| Assessment.Context | main3.py:288-295 | the six turns have the roles system, user, assistant, user, assistant, user; the first holds the system prompt and the last holds the text |
| Assessment.Parse | main3.py:288-295 | reading a conversation back succeeds exactly for conversations of that six-turn shape |
| Assessment.ParseContext | main3.py:288-295 | reading back the built conversation recovers the prompt and the text unchanged |
| Assessment.ContextOfParse | main3.py:288-295 | every conversation of the six-turn shape is the one built from what it reads back as |
| Assessment.ContextInjective | main3.py:288-295 | two conversations are equal exactly when their prompts and texts are equal |
| Assessment.CompletionRequest | main3.py:296-301 | the request carries the conversation for the text, model "gpt-4.1", temperature 0.1 and `max_tokens` 5000 |
| Assessment.Assess | main3.py:302 | the grade is the reply with the surrounding whitespace stripped: what is left is kept exactly, and only a blank reply gives an empty grade |
| Pipeline.GuardedUpload | main3.py:339-342 | an upload inside `try`/`except Exception` is reported as done exactly when the call returns; an exception is only reported. One raised before Drive acted leaves Drive as it was; one raised after Drive acted (a lost reply) leaves Drive as the upload does |
| Pipeline.Deliver | main3.py:444-447 | the handler's own length check agrees with `send_long_message`: the messages sent are its segments, and together they give the grade back |
| Pipeline.LogStep | main3.py:311-342 | `log_interaction` raises exactly when the log is undecodable or the write fails; then it has sent nothing and left Drive alone, though the local file may already have changed (`Pipeline.TailAbort`); otherwise it reports the record and then the log upload, successful or not |
| Pipeline.CmdStart | main3.py:385-391 | `/start` shows typing and answers with the greeting only; it changes no state |
| Pipeline.LogStepSuccess | main3.py:311-342 | a `log_interaction` that gets through appends the record to the file and then uploads the log |
| Pipeline.AssessLogDeliver | main3.py:438-447 | the common tail of both handlers keeps Drive valid; a failed chat call changes nothing, and a tail that raises leaves Drive alone. The rest of its contract is stated by `Pipeline.TailStart`, `Pipeline.TailSuccess`, `Pipeline.TailFinishes` and `Pipeline.TailAbort` |
| Pipeline.TailSuccess | main3.py:455-464 | `AssessLogDeliver`, when it gets through, runs in this order: the request; the log record and the log upload; the grade in segments. The log gains that one record |
| Pipeline.TailStart | main3.py:455-458 | `AssessLogDeliver` keeps what happened before it and asks next; only the chat call or `log_interaction` can stop it |
| Pipeline.TailFinishes | main3.py:455-464 | `AssessLogDeliver` finishes exactly when the chat call answers, the log is decodable and the write goes through |
| Pipeline.TailAbort | main3.py:455-458 | `AssessLogDeliver`, when it raises: the request is the last effect; Drive does not change; the reason is the failed chat call, the undecodable log, or the failed write, in that order. The log file is as it was when the chat call, the read or `open` failed; after a failed dump it does not parse, and does not decode exactly when the cut fell inside a character; after a failed `close()` it holds the appended array (`Pipeline.LeftAfterRaise`) |
| Pipeline.HandleText | main3.py:452-466 | `handle_text` shows typing, then asks about the text; only the chat call or `log_interaction` can stop it |
| Pipeline.TextFinishes | main3.py:452-466 | `handle_text` finishes exactly when the chat call answers, the log is decodable and the write goes through; no Drive failure can stop it |
| Pipeline.TextEffects | main3.py:452-466 | a finished `handle_text` runs in this order: typing; the request about the text; the log record of the text and its grade; the log upload, success or failure; then the grade in segments |
| Pipeline.TextMessages | main3.py:452-466 | the messages a finished `handle_text` sends are the segments of the stripped reply, which together give it back |
| Pipeline.TextAbortSilent | main3.py:452-458 | a `handle_text` that raises has sent no message and left Drive alone; the log file is left as `Pipeline.TailAbort` describes: as it was, unparseable or undecodable after a failed dump, or complete after a failed `close()` |
| Pipeline.TornLogBlocksText | main3.py:452-458 | a `handle_text` whose dump is cut inside a multi-byte character raises, and every later `handle_text` raises too, sends nothing and leaves the log file as it is, whatever its own calls do |
| Pipeline.TornLogBlocksVoice | main3.py:428-441 | after a `handle_text` whose dump was cut inside a multi-byte character, every later `handle_voice` raises: once transcribed and answered by the chat model, with `UnicodeDecodeError` from the log; it sends at most the transcript and leaves the log file as it is |
| Pipeline.UndecodableLogBlocksVoice | main3.py:428-441 | on an undecodable log, `handle_voice` never finishes: it sends at most the transcript, raises in `log_interaction` whenever it is transcribed and the chat call answers, and leaves the log file as it is |
| Pipeline.Transcript | main3.py:412-414 | the transcript is Whisper's text stripped: neither end is whitespace, it is the part right after the leading whitespace with only whitespace after it, and it is empty exactly for a blank transcription |
| Pipeline.HandleVoice | main3.py:394-449 | `handle_voice` shows typing first; it stops with a transcoding failure exactly when there is no mp3, and with a transcription failure exactly when Whisper raises; a stopped run before the transcript does nothing else; once transcribed, it answers with the transcript and then asks about it |
| Pipeline.VoiceFinishes | main3.py:394-449 | `handle_voice` finishes exactly when transcoding, transcription, the chat call, reading the log and writing it all get through; neither Drive upload can stop it |
| Pipeline.VoiceTranscodeAbort | main3.py:396-414 | a failed download, transcoding or transcription stops `handle_voice` right after the typing notice: nothing is answered, uploaded, asked or logged |
| Pipeline.VoiceEffects | main3.py:394-449 | a finished `handle_voice` runs in this order: typing; the transcript reply; the mp3 upload under its voice path; the request about the transcript; the log record; the log upload; the grade in segments |
| Pipeline.VoiceMessages | main3.py:428-447 | a finished `handle_voice` sends the transcript reply and then the segments of the grade, which together give the grade back |
| Pipeline.VoiceAbortAfterTranscript | main3.py:428-441 | a `handle_voice` that raises after transcribing has sent the transcript only and kept what the archive step did on Drive; the log file is left as `Pipeline.TailAbort` describes |
| Pipeline.Archive | main3.py:419-435 | archiving uploads the mp3 under its voice path without touching the log file; it is reported as uploaded exactly when the call returns; an upload refused before Drive acted leaves everything as it was |
| Pipeline.ArchiveCreates | main3.py:419-433 | an archive step that reached Drive creates one new object, the mp3 under its voice file name in the folder, even when the reply was lost and the upload is reported as failed |
| Pipeline.VoiceArchived | main3.py:419-441 | once its upload reaches Drive, the archived mp3 stays there under a new id, named after the transcript, whatever happens next: a failed grade or log does not undo it, and the log upload does not overwrite it; the trace shows the id only when the call returned |
| Pipeline.TailKeepsUnique | main3.py:338-342 | the tail's log upload never makes a second `records.json` in the folder |
| Pipeline.HandlersKeepOneLog | main3.py:394-466 | starting from at most one `records.json` in the folder, neither handler makes a second one, so the log upload always finds the one log there is |
| Pipeline.LogPathBasename | main3.py:47 | the log is uploaded under its own name `records.json` |
| Pipeline.VoiceNameNotLog | main3.py:422 | a voice file name, which ends in ".mp3", is never the log's name |

## Left out

- Telegram, ffmpeg, Whisper, the chat model and Drive are not called. Each is an input to a run that says what it returns or whether it raises (`Pipeline.Calls`). Sending a message, or the typing notice, is assumed never to raise. A chat reply whose content is missing raises in `strip()`; it is folded into the failed chat call (`AssessmentFailed`). An upload that raises is modelled as raising either before Drive acted or after Drive carried the call out (`Pipeline.UploadCall`); a resumable upload left half done on Drive is not modelled.
- Telegram's own limits are not modelled. It rejects empty and over-long messages. The empty first chunk of `Segmenter.FirstChunkEmpty`, and a single line over 4096 characters, are therefore recorded as sent.
- The environment checks (`main3.py:27-34`) and the Drive service construction (`main3.py:51-61`) are left out, along with credentials and `logging`. The one environment fact the model uses is that the folder id is set (`main3.py:33-34`). It appears as the `folder != ""` requirement of `Drive.LogUploadTwice`.
- Drive.Find: `files.list` returns the matches in an order the code does not fix, and the code takes the first of them (`main3.py:72`). The model takes the least matching id; the parts of its contract that hold for the code are that the id returned matches, and that none is returned exactly when nothing matches. Nothing else depends on the choice: `Drive.LogUploadTwice` assumes at most one log in the folder (`Drive.Unique`), and then every order gives the same answer (`Drive.FindUnique`). Log uploads keep that assumption true (`Drive.LogUploadKeepsUnique`), and so do both handlers (`Pipeline.HandlersKeepOneLog`). With two logs already in the folder, which one is updated is not modelled.
- The Drive query string is built by interpolating the name unescaped (`main3.py:68`). It is modelled as the exact query it intends. A name containing a quote is out of scope.
- JSON is modelled at the level of entries. Serialisation, indentation and `ensure_ascii` are left out. What reading the file yields is an input (`InteractionLog.LogFile`). How far a failed write got is an input too (`InteractionLog.Write`): untouched, cut at a character boundary (empty or a cut-off array, which the next read rejects alike), cut inside a multi-byte character, or complete with only `close()` failing.
- `send_response_as_file` (`main3.py:366-382`) is not called by any handler and is left out, along with `TEXT_DIR`.
- FileNames.CollapseSpaces: its own contract says only that it empties nothing but the empty string. What it computes is fixed by `FileNames.CollapseInner`, `FileNames.CollapseChars` and `FileNames.SanitizeIsJoinOfWords`.
- The temporary `.oga`/`.mp3` files are left out, along with `os.replace`, `os.remove` and `os.makedirs`. The mp3 that is archived is an input. A failure of `get_file`, the download or ffmpeg is folded into one "no mp3" case (`TranscodeFailed`).
- The prompt texts (`SYSTEM_PROMPT` and the worked examples) are configuration and stay opaque strings. Temperature 0.1 is kept as the integer 1 in tenths, because the model has no floating point.
- Concurrent handlers are left out, because each handler runs to completion in the model. That leaves out their race on the read-modify-write of `records.json` and their colliding temporary file names (`main3.py:400-402`). The polling loop (`main3.py:469-474`) is left out too. `main.py`, an earlier variant of the bot, is not part of this model.

No finding is claimed. Where the code surprises, the model reproduces it as
written and states the surprise as a property:

- the empty first chunk (`Segmenter.FirstChunkEmpty`, `Segmenter.OneLongLine`);
- the "_" that joins the first words of a voice file name, which the sanitiser then deletes again (`FileNames.VoiceFileNameSpec`);
- the non-idempotent sanitiser (`FileNames.SanitizeNotIdempotent`);
- the history lost on a malformed log (`InteractionLog.HistoryLost`);
- the uncaught log errors (`Pipeline.TailAbort`).

=== FILE: assessment.dfy ===
/**
 The chat request `assess_text` sends: a fixed six-turn conversation (the
 system prompt, two worked examples, and the text to assess), and the stripped
 reply. The prompt and example texts are configuration and stay opaque.
 */
module Assessment {
  import opened Wrappers
  import opened Text

  datatype Role = System | User | Assistant

  /** One message of the chat request. */
  datatype Turn = Turn(role: Role, content: string)

  /** `SYSTEM_PROMPT` and the two few-shot pairs `EXAMPLE_n_INPUT` / `EXAMPLE_n_OUTPUT`. */
  datatype Prompt = Prompt(
    system: string,
    example1In: string, example1Out: string,
    example2In: string, example2Out: string)

  /** The roles of the six turns, in order. */
  const Roles: seq<Role> := [System, User, Assistant, User, Assistant, User]

  /** A conversation of the shape `assess_text` sends. */
  predicate Shaped(ctx: seq<Turn>) {
    |ctx| == |Roles| && forall i :: 0 <= i < |ctx| ==> ctx[i].role == Roles[i]
  }

  /** The `messages` list of `assess_text` for the text `text`. */
  function Context(p: Prompt, text: string): (ctx: seq<Turn>)
    ensures Shaped(ctx)
    ensures ctx[0].content == p.system
    ensures ctx[|ctx| - 1].content == text
  {
    [ Turn(System, p.system),
      Turn(User, p.example1In),
      Turn(Assistant, p.example1Out),
      Turn(User, p.example2In),
      Turn(Assistant, p.example2Out),
      Turn(User, text) ]
  }

  /** Reads a conversation back into its prompt and the text it asks about;
      `None` for any conversation not of the six-turn shape. */
  function Parse(ctx: seq<Turn>): (r: Option<(Prompt, string)>)
    ensures r.Some? <==> Shaped(ctx)
  {
    if Shaped(ctx) then
      Some((Prompt(ctx[0].content, ctx[1].content, ctx[2].content, ctx[3].content, ctx[4].content),
            ctx[5].content))
    else None
  }

  /** Parsing the built conversation recovers the prompt and the text unchanged. */
  lemma ParseContext(p: Prompt, text: string)
    ensures Parse(Context(p, text)) == Some((p, text))
  {
  }

  /** Every six-turn conversation of that shape is the one built from what it parses to. */
  lemma ContextOfParse(ctx: seq<Turn>)
    requires Shaped(ctx)
    ensures Parse(ctx).Some?
    ensures Context(Parse(ctx).value.0, Parse(ctx).value.1) == ctx
  {
    var c := Context(Parse(ctx).value.0, Parse(ctx).value.1);
    forall i | 0 <= i < |ctx|
      ensures c[i] == ctx[i]
    {
      assert c[i].role == Roles[i] == ctx[i].role;
    }
  }

  /** Different texts, or different prompts, give different conversations. */
  lemma ContextInjective(p1: Prompt, t1: string, p2: Prompt, t2: string)
    ensures Context(p1, t1) == Context(p2, t2) <==> p1 == p2 && t1 == t2
  {
    if Context(p1, t1) == Context(p2, t2) {
      ParseContext(p1, t1);
      ParseContext(p2, t2);
    }
  }

  /** The completion model `assess_text` asks. */
  const Model: string := "gpt-4.1"

  /** The sampling temperature 0.1, in tenths (there is no floating point here). */
  const TemperatureTenths: nat := 1

  /** The reply length cap `max_tokens`. */
  const MaxTokens: nat := 5000

  /** The arguments of `openai.chat.completions.create`. */
  datatype Request = Request(model: string, messages: seq<Turn>, temperatureTenths: nat, maxTokens: nat)

  /** The request `assess_text` sends for `text`. */
  function CompletionRequest(p: Prompt, text: string): (r: Request)
    ensures Shaped(r.messages) && Parse(r.messages) == Some((p, text))
    ensures r.model == Model && r.temperatureTenths == TemperatureTenths && r.maxTokens == MaxTokens
  {
    ParseContext(p, text);
    Request(Model, Context(p, text), TemperatureTenths, MaxTokens)
  }

  /** The assessment returned for the model's reply: the reply stripped of
      surrounding whitespace. The rest of the reply is kept exactly, and only a
      blank reply gives an empty assessment. */
  function Assess(reply: string): (r: string)
    ensures r == [] || (!IsSpace(r[0]) && !IsSpace(r[|r| - 1]))
    ensures AllSpace(reply) <==> r == []
    ensures LeadingRun(reply, IsSpace) + |r| <= |reply|
    ensures r == reply[LeadingRun(reply, IsSpace)..LeadingRun(reply, IsSpace) + |r|]
  {
    StripBlank(reply);
    Strip(reply)
  }
}

=== FILE: drive.dfy ===
/**
 The Google Drive side of `upload_file_to_gdrive` and `find_file_on_drive`,
 over an abstract store: a map from object ids to objects, and the next id the
 store will hand out. Only the update-or-create decision is modelled.
 */
module Drive {
  import opened Wrappers
  import FileNames

  type Id = nat

  /** A stored object: its name, the folders it is in, its content, and whether it is in the trash. */
  datatype Obj<C> = Obj(name: string, parents: seq<string>, content: C, trashed: bool)

  datatype Store<C> = Store(objects: map<Id, Obj<C>>, nextId: Id)

  /** Every id in use was handed out before `nextId`. */
  predicate Valid<C>(s: Store<C>) {
    forall id :: id in s.objects ==> id < s.nextId
  }

  /** The query of `find_file_on_drive`: the name, the folder among the parents, not trashed. */
  predicate Matches<C>(s: Store<C>, id: Id, name: string, folder: string) {
    && id in s.objects
    && s.objects[id].name == name
    && folder in s.objects[id].parents
    && !s.objects[id].trashed
  }

  /** The first match at or after `from`. */
  function FindFrom<C>(s: Store<C>, name: string, folder: string, from: Id): (r: Option<Id>)
    ensures r.Some? ==> from <= r.value < s.nextId && Matches(s, r.value, name, folder)
    ensures r.Some? ==> forall j :: from <= j < r.value ==> !Matches(s, j, name, folder)
    ensures r.None? ==> forall j :: from <= j < s.nextId ==> !Matches(s, j, name, folder)
    decreases if from <= s.nextId then s.nextId - from else 0
  {
    if from >= s.nextId then None
    else if Matches(s, from, name, folder) then Some(from)
    else FindFrom(s, name, folder, from + 1)
  }

  /** `find_file_on_drive`: some matching object, or none when there is none.
      Drive lists matches in an order the code does not fix; the model takes
      the least id. */
  function Find<C>(s: Store<C>, name: string, folder: string): (r: Option<Id>)
    requires Valid(s)
    ensures r.Some? ==> Matches(s, r.value, name, folder)
    ensures r.None? <==> forall id :: !Matches(s, id, name, folder)
    ensures r.Some? ==> forall j: Id :: j < r.value ==> !Matches(s, j, name, folder)
  {
    FindFrom(s, name, folder, 0)
  }

  /** The parents given to a created object: the folder, when one is set. */
  function ParentsFor(folder: string): seq<string> {
    if folder != "" then [folder] else []
  }

  /** Whether `upload_file_to_gdrive` updates an existing object: only a log
      upload looks one up. */
  function Existing<C>(s: Store<C>, path: string, folder: string, isLog: bool): (r: Option<Id>)
    requires Valid(s)
    ensures r.Some? ==> isLog && Matches(s, r.value, FileNames.Basename(path), folder)
    ensures !isLog ==> r.None?
    ensures isLog && r.None? ==> forall id :: !Matches(s, id, FileNames.Basename(path), folder)
  {
    if isLog then Find(s, FileNames.Basename(path), folder) else None
  }

  /** `files.update` with a new body only: the object keeps its id, name,
      parents and trash state; nothing else changes. */
  function Update<C>(s: Store<C>, id: Id, content: C): (r: Store<C>)
    requires Valid(s) && id in s.objects
    ensures Valid(r)
    ensures r.nextId == s.nextId && r.objects.Keys == s.objects.Keys
    ensures r.objects[id] == s.objects[id].(content := content)
    ensures forall k :: k in s.objects && k != id ==> r.objects[k] == s.objects[k]
  {
    s.(objects := s.objects[id := s.objects[id].(content := content)])
  }

  /** `files.create`: one new object under a fresh id; nothing else changes. */
  function Create<C>(s: Store<C>, obj: Obj<C>): (r: (Store<C>, Id))
    requires Valid(s)
    ensures Valid(r.0)
    ensures r.1 !in s.objects && r.1 < r.0.nextId
    ensures r.0.objects.Keys == s.objects.Keys + {r.1}
    ensures r.0.objects[r.1] == obj
    ensures forall k :: k in s.objects ==> r.0.objects[k] == s.objects[k]
  {
    (Store(s.objects[s.nextId := obj], s.nextId + 1), s.nextId)
  }

  /** `upload_file_to_gdrive`: the store afterwards and the id returned. The
      object returned bears the file's name and the new content, nothing is
      removed, and every object other than the one returned is left as it was;
      so an object of another name is never touched. */
  function Upload<C>(s: Store<C>, path: string, content: C, folder: string, isLog: bool): (r: (Store<C>, Id))
    requires Valid(s)
    ensures Valid(r.0)
    ensures s.objects.Keys <= r.0.objects.Keys
    ensures r.1 in r.0.objects && r.0.objects[r.1].name == FileNames.Basename(path)
    ensures r.0.objects[r.1].content == content
    ensures r.1 in s.objects ==> s.objects[r.1].name == FileNames.Basename(path)
    ensures forall k :: k in s.objects && k != r.1 ==> r.0.objects[k] == s.objects[k]
  {
    match Existing(s, path, folder, isLog)
    case Some(id) => (Update(s, id, content), id)
    case None => Create(s, Obj(FileNames.Basename(path), ParentsFor(folder), content, false))
  }

  /** A log file that has a match is updated in place: same id, same name,
      parents and trash state, new content, no object added, nothing else touched. */
  lemma UploadUpdatesLog<C>(s: Store<C>, path: string, content: C, folder: string)
    requires Valid(s)
    requires Find(s, FileNames.Basename(path), folder).Some?
    ensures var r := Upload(s, path, content, folder, true);
            && r.1 == Find(s, FileNames.Basename(path), folder).value
            && r.0.objects.Keys == s.objects.Keys
            && r.0.objects[r.1] == s.objects[r.1].(content := content)
            && (forall k :: k in s.objects && k != r.1 ==> r.0.objects[k] == s.objects[k])
  {
  }

  /** Every other upload, a non-log file or a log without a match, creates
      exactly one new object named after the file, in the folder. */
  lemma UploadCreates<C>(s: Store<C>, path: string, content: C, folder: string, isLog: bool)
    requires Valid(s)
    requires !isLog || Find(s, FileNames.Basename(path), folder).None?
    ensures var r := Upload(s, path, content, folder, isLog);
            && r.1 !in s.objects
            && r.0.objects.Keys == s.objects.Keys + {r.1}
            && r.0.objects[r.1] == Obj(FileNames.Basename(path), ParentsFor(folder), content, false)
            && (forall k :: k in s.objects ==> r.0.objects[k] == s.objects[k])
  {
  }

  /** At most one object of this name in this folder is out of the trash. Then
      the order in which Drive lists the matches cannot matter. */
  ghost predicate Unique<C>(s: Store<C>, name: string, folder: string) {
    forall a, b :: Matches(s, a, name, folder) && Matches(s, b, name, folder) ==> a == b
  }

  /** With at most one match, the lookup returns that match, whatever order
      the listing is in. */
  lemma FindUnique<C>(s: Store<C>, name: string, folder: string, id: Id)
    requires Valid(s) && Unique(s, name, folder) && Matches(s, id, name, folder)
    ensures Find(s, name, folder) == Some(id)
  {
  }

  /** Uploading the log twice under the same path reaches one object when the
      folder holds at most one log: the second upload updates what the first
      created or updated, and adds nothing. */
  lemma LogUploadTwice<C>(s: Store<C>, path: string, c1: C, c2: C, folder: string)
    requires Valid(s)
    requires folder != ""
    requires Unique(s, FileNames.Basename(path), folder)
    ensures var r1 := Upload(s, path, c1, folder, true);
            var r2 := Upload(r1.0, path, c2, folder, true);
            && r2.1 == r1.1
            && r2.0.objects.Keys == r1.0.objects.Keys
            && r2.0.objects[r1.1].content == c2
  {
    var name := FileNames.Basename(path);
    var r1 := Upload(s, path, c1, folder, true);
    LogUploadKeepsUnique(s, path, c1, folder);
    FindUnique(r1.0, name, folder, r1.1);
    UploadUpdatesLog(r1.0, path, c2, folder);
  }

  /** A log upload keeps at most one log in the folder, and, with a folder
      set, what it returns is that log. */
  lemma LogUploadKeepsUnique<C>(s: Store<C>, path: string, c: C, folder: string)
    requires Valid(s) && Unique(s, FileNames.Basename(path), folder)
    ensures var r := Upload(s, path, c, folder, true);
            && Unique(r.0, FileNames.Basename(path), folder)
            && (folder != "" ==> Matches(r.0, r.1, FileNames.Basename(path), folder))
  {
    var name := FileNames.Basename(path);
    var r := Upload(s, path, c, folder, true);
    if Find(s, name, folder).Some? {
      UploadUpdatesLog(s, path, c, folder);
      SameMatches(s, r.0, name, folder, r.1);
    } else {
      UploadCreates(s, path, c, folder, true);
      OnlyNewMatches(s, r.0, name, folder, r.1);
    }
  }

  /** Changing the content of one object leaves the matches as they were. */
  lemma SameMatches<C>(s: Store<C>, t: Store<C>, name: string, folder: string, id: Id)
    requires id in s.objects && t.objects.Keys == s.objects.Keys
    requires t.objects[id] == s.objects[id].(content := t.objects[id].content)
    requires forall k :: k in s.objects && k != id ==> t.objects[k] == s.objects[k]
    requires Unique(s, name, folder)
    ensures Unique(t, name, folder)
  {
    assert forall k :: Matches(t, k, name, folder) ==> Matches(s, k, name, folder);
  }

  /** Adding one object to a store with no match leaves at most that one. */
  lemma OnlyNewMatches<C>(s: Store<C>, t: Store<C>, name: string, folder: string, id: Id)
    requires forall k :: !Matches(s, k, name, folder)
    requires t.objects.Keys == s.objects.Keys + {id}
    requires forall k :: k in s.objects ==> t.objects[k] == s.objects[k]
    ensures Unique(t, name, folder)
  {
    forall k | Matches(t, k, name, folder)
      ensures k == id
    {
      if k != id {
        assert Matches(s, k, name, folder);
      }
    }
  }

  /** An upload under another name keeps at most one object of this name. */
  lemma OtherUploadKeepsUnique<C>(s: Store<C>, path: string, c: C, folder: string, isLog: bool, name: string, f: string)
    requires Valid(s) && Unique(s, name, f)
    requires FileNames.Basename(path) != name
    ensures Unique(Upload(s, path, c, folder, isLog).0, name, f)
  {
    var r := Upload(s, path, c, folder, isLog);
    forall k | Matches(r.0, k, name, f)
      ensures Matches(s, k, name, f)
    {
      assert k != r.1;
    }
  }

  /** Uploading a non-log file twice makes two distinct new objects. */
  lemma NonLogUploadTwice<C>(s: Store<C>, path: string, c1: C, c2: C, folder: string)
    requires Valid(s)
    ensures var r1 := Upload(s, path, c1, folder, false);
            var r2 := Upload(r1.0, path, c2, folder, false);
            && r1.1 != r2.1
            && r1.1 !in s.objects && r2.1 !in s.objects
            && r2.0.objects.Keys == s.objects.Keys + {r1.1, r2.1}
  {
    var r1 := Upload(s, path, c1, folder, false);
    assert r1.1 !in s.objects && r1.0.objects.Keys == s.objects.Keys + {r1.1} by {
      UploadCreates(s, path, c1, folder, false);
    }
    var r2 := Upload(r1.0, path, c2, folder, false);
    assert r2.1 !in r1.0.objects && r2.0.objects.Keys == r1.0.objects.Keys + {r2.1} by {
      UploadCreates(r1.0, path, c2, folder, false);
    }
    FreshTwice(s.objects.Keys, r1.0.objects.Keys, r2.0.objects.Keys, r1.1, r2.1);
  }

  /** Two ids, each fresh when it was added, are distinct and both new. */
  lemma FreshTwice(k0: set<Id>, k1: set<Id>, k2: set<Id>, a: Id, b: Id)
    requires a !in k0 && k1 == k0 + {a}
    requires b !in k1 && k2 == k1 + {b}
    ensures a != b && b !in k0
    ensures k2 == k0 + {a, b}
  {
  }
}

=== FILE: filenames.dfy ===
/**
 Local file naming: `sanitize_filename` (a character filter, whitespace runs
 collapsed to "_", "_" stripped from both ends), the name of an archived voice
 recording built from the first words of its transcript, and `os.path.basename`.
 */
module FileNames {
  import opened Text

  /** The characters the filter keeps besides whitespace: `[A-Za-z0-9А-Яа-яёЁ]`. */
  predicate IsNameChar(c: char) {
    || ('A' <= c <= 'Z') || ('a' <= c <= 'z') || ('0' <= c <= '9')
    || ('А' <= c <= 'Я') || ('а' <= c <= 'я') || c == 'ё' || c == 'Ё'
  }

  /** The complement of the class `[^A-Za-z0-9А-Яа-яёЁ\s]` removed by the filter. */
  predicate KeptByFilter(c: char) {
    IsNameChar(c) || IsSpace(c)
  }

  predicate IsUnderscore(c: char) {
    c == '_'
  }

  predicate NoUnderscore(s: string) {
    forall i :: 0 <= i < |s| ==> s[i] != '_'
  }

  predicate NoDoubleUnderscore(s: string) {
    forall i :: 0 <= i < |s| - 1 ==> !(s[i] == '_' && s[i + 1] == '_')
  }

  /** `re.sub(r"\s+", "_", s)`: every maximal run of whitespace becomes one "_". */
  function CollapseSpaces(s: string): (r: string)
    ensures r == [] <==> s == []
    decreases |s|
  {
    if s == [] then []
    else if IsSpace(s[0]) then "_" + CollapseSpaces(TrimLeft(s, IsSpace))
    else [s[0]] + CollapseSpaces(s[1..])
  }

  /** Collapsing maps whitespace to "_" and keeps the other characters. */
  lemma {:induction false} CollapseChars(s: string)
    requires forall i :: 0 <= i < |s| ==> IsNameChar(s[i]) || IsSpace(s[i])
    ensures forall i :: 0 <= i < |CollapseSpaces(s)| ==>
              IsNameChar(CollapseSpaces(s)[i]) || CollapseSpaces(s)[i] == '_'
    decreases |s|
  {
    if s != [] {
      if IsSpace(s[0]) {
        var t := TrimLeft(s, IsSpace);
        assert forall i :: 0 <= i < |t| ==> t[i] == s[|s| - |t| + i];
        CollapseChars(t);
        CollapseSpaceStart(s);
        PrependKept('_', CollapseSpaces(t));
      } else {
        CollapseChars(s[1..]);
        CollapseCharStart(s);
        PrependKept(s[0], CollapseSpaces(s[1..]));
      }
    }
  }

  lemma PrependKept(c: char, x: string)
    requires IsNameChar(c) || c == '_'
    requires forall i :: 0 <= i < |x| ==> IsNameChar(x[i]) || x[i] == '_'
    ensures forall i :: 0 <= i < |[c] + x| ==> IsNameChar(([c] + x)[i]) || ([c] + x)[i] == '_'
  {
  }

  /** Collapsing neither loses, adds nor reorders a name character. */
  lemma {:induction false} CollapseContent(s: string)
    ensures Filter(IsNameChar, CollapseSpaces(s)) == Filter(IsNameChar, s)
    decreases |s|
  {
    if s != [] {
      if IsSpace(s[0]) {
        CollapseContent(TrimLeft(s, IsSpace));
        CollapseContentSpace(s);
      } else {
        CollapseContent(s[1..]);
        CollapseContentChar(s);
      }
    }
  }

  /** The step of `CollapseContent` past a whitespace run. */
  lemma CollapseContentSpace(s: string)
    requires s != [] && IsSpace(s[0])
    requires Filter(IsNameChar, CollapseSpaces(TrimLeft(s, IsSpace))) == Filter(IsNameChar, TrimLeft(s, IsSpace))
    ensures Filter(IsNameChar, CollapseSpaces(s)) == Filter(IsNameChar, s)
  {
    NameSkipsSpaces(s);
    NameSkipsUnderscore(CollapseSpaces(TrimLeft(s, IsSpace)));
    CollapseSpaceStart(s);
  }

  /** Leading whitespace holds no name character. */
  lemma NameSkipsSpaces(s: string)
    ensures Filter(IsNameChar, s) == Filter(IsNameChar, TrimLeft(s, IsSpace))
  {
    var t := TrimLeft(s, IsSpace);
    var pre := s[..|s| - |t|];
    assert s == pre + t;
    FilterAppend(IsNameChar, pre, t);
    SpacesHaveNoName(pre);
    assert [] + Filter(IsNameChar, t) == Filter(IsNameChar, t);
  }

  /** A leading "_" holds no name character. */
  lemma NameSkipsUnderscore(rest: string)
    ensures Filter(IsNameChar, "_" + rest) == Filter(IsNameChar, rest)
  {
    FilterAppend(IsNameChar, "_", rest);
    UnderscoreHasNoName();
    assert [] + Filter(IsNameChar, rest) == Filter(IsNameChar, rest);
  }

  /** No whitespace character is a name character. */
  lemma SpaceIsNoName(c: char)
    requires IsSpace(c)
    ensures !IsNameChar(c)
  {
  }

  /** A run of whitespace has no name characters. */
  lemma SpacesHaveNoName(s: string)
    requires AllSpace(s)
    ensures Filter(IsNameChar, s) == []
  {
    forall i | 0 <= i < |s|
      ensures !IsNameChar(s[i])
    {
      SpaceIsNoName(s[i]);
    }
    FilterNone(IsNameChar, s);
  }

  lemma UnderscoreHasNoName()
    ensures Filter(IsNameChar, "_") == []
  {
    FilterNone(IsNameChar, "_");
  }

  /** The step of `CollapseContent` past a character that is not whitespace. */
  lemma CollapseContentChar(s: string)
    requires s != [] && !IsSpace(s[0])
    requires Filter(IsNameChar, CollapseSpaces(s[1..])) == Filter(IsNameChar, s[1..])
    ensures Filter(IsNameChar, CollapseSpaces(s)) == Filter(IsNameChar, s)
  {
    var rest := CollapseSpaces(s[1..]);
    CollapseCharStart(s);
    FilterAppend(IsNameChar, [s[0]], rest);
    FilterAppend(IsNameChar, [s[0]], s[1..]);
    assert s == [s[0]] + s[1..];
  }

  lemma CollapseCharStart(s: string)
    requires s != [] && !IsSpace(s[0])
    ensures CollapseSpaces(s) == [s[0]] + CollapseSpaces(s[1..])
  {
  }

  /** Collapsing starts and ends with "_" exactly where the input starts and ends with whitespace. */
  lemma CollapseEnds(s: string)
    ensures CollapseSpaces(s) == [] <==> s == []
    ensures s != [] && IsSpace(s[0]) ==> CollapseSpaces(s)[0] == '_'
    ensures s != [] && !IsSpace(s[0]) ==> CollapseSpaces(s)[0] == s[0]
    ensures s != [] && IsSpace(s[|s| - 1]) ==> CollapseSpaces(s)[|CollapseSpaces(s)| - 1] == '_'
    ensures s != [] && !IsSpace(s[|s| - 1]) ==> CollapseSpaces(s)[|CollapseSpaces(s)| - 1] == s[|s| - 1]
  {
    if s != [] {
      CollapseLast(s);
    }
  }

  /** What a character stands for after collapsing. */
  function Collapsed(c: char): char {
    if IsSpace(c) then '_' else c
  }

  /** The last character of a collapsed non-empty string. */
  lemma {:induction false} CollapseLast(s: string)
    requires s != []
    ensures CollapseSpaces(s) != []
    ensures CollapseSpaces(s)[|CollapseSpaces(s)| - 1] == Collapsed(s[|s| - 1])
    decreases |s|
  {
    if IsSpace(s[0]) {
      var t := TrimLeft(s, IsSpace);
      CollapseSpaceStart(s);
      if t != [] {
        CollapseLast(t);
        LastOfSuffix(s, t);
        LastOfAppend("_", CollapseSpaces(t));
      } else {
        assert IsSpace(s[|s| - 1]);
      }
    } else if |s| > 1 {
      CollapseCharStart(s);
      CollapseLast(s[1..]);
      LastOfAppend([s[0]], CollapseSpaces(s[1..]));
    } else {
      CollapseCharStart(s);
    }
  }

  lemma LastOfAppend(a: string, b: string)
    requires b != []
    ensures |a + b| > 0 && (a + b)[|a + b| - 1] == b[|b| - 1]
  {
  }

  lemma LastOfSuffix(s: string, t: string)
    requires t != [] && |t| <= |s| && t == s[|s| - |t|..]
    ensures t[|t| - 1] == s[|s| - 1]
  {
  }

  /** With no "_" in the input, the "_"s of the output are never adjacent. */
  lemma {:induction false} CollapseNoDouble(s: string)
    requires NoUnderscore(s)
    ensures NoDoubleUnderscore(CollapseSpaces(s))
    decreases |s|
  {
    if s != [] {
      if IsSpace(s[0]) {
        var t := TrimLeft(s, IsSpace);
        NoUnderscoreSuffix(s, |s| - |t|);
        CollapseNoDouble(t);
        CollapseNoDoubleSpace(s);
      } else {
        NoUnderscoreSuffix(s, 1);
        CollapseNoDouble(s[1..]);
        CollapseNoDoubleChar(s);
      }
    }
  }

  lemma NoUnderscoreSuffix(s: string, k: nat)
    requires NoUnderscore(s) && k <= |s|
    ensures NoUnderscore(s[k..])
  {
    assert forall i :: 0 <= i < |s| - k ==> s[k..][i] == s[k + i];
  }

  /** The step of `CollapseNoDouble` past a whitespace run. */
  lemma CollapseNoDoubleSpace(s: string)
    requires s != [] && IsSpace(s[0]) && NoUnderscore(s)
    requires NoDoubleUnderscore(CollapseSpaces(TrimLeft(s, IsSpace)))
    ensures NoDoubleUnderscore(CollapseSpaces(s))
  {
    var t := TrimLeft(s, IsSpace);
    NoUnderscoreSuffix(s, |s| - |t|);
    CollapseEnds(t);
    CollapseSpaceStart(s);
    NoDoubleAppend("_", CollapseSpaces(t));
  }

  /** The step of `CollapseNoDouble` past a character that is not whitespace. */
  lemma CollapseNoDoubleChar(s: string)
    requires s != [] && !IsSpace(s[0]) && NoUnderscore(s)
    requires NoDoubleUnderscore(CollapseSpaces(s[1..]))
    ensures NoDoubleUnderscore(CollapseSpaces(s))
  {
    CollapseCharStart(s);
    NoDoubleAppend([s[0]], CollapseSpaces(s[1..]));
  }

  /** Two strings without "__" do not make one at their joint unless both sides are "_". */
  lemma NoDoubleAppend(x: string, y: string)
    requires NoDoubleUnderscore(x) && NoDoubleUnderscore(y)
    requires x == [] || y == [] || x[|x| - 1] != '_' || y[0] != '_'
    ensures NoDoubleUnderscore(x + y)
  {
    var xy := x + y;
    forall i | 0 <= i < |xy| - 1
      ensures !(xy[i] == '_' && xy[i + 1] == '_')
    {
      if i + 1 < |x| {
        assert xy[i] == x[i] && xy[i + 1] == x[i + 1];
      } else if i >= |x| {
        assert xy[i] == y[i - |x|] && xy[i + 1] == y[i - |x| + 1];
      }
    }
  }

  /** Filtering by a predicate no character of `s` meets gives nothing. */
  lemma {:induction false} FilterNone(p: char -> bool, s: string)
    requires forall i :: 0 <= i < |s| ==> !p(s[i])
    ensures Filter(p, s) == []
  {
    if s != [] {
      FilterNone(p, s[1..]);
    }
  }

  /** Python's `sanitize_filename`. Its result holds only name characters and
      "_", hence no whitespace; no "_" at either end; never two "_" in a row. */
  function Sanitize(name: string): (r: string)
    ensures forall i :: 0 <= i < |r| ==> IsNameChar(r[i]) || r[i] == '_'
    ensures NoSpace(r)
    ensures r == [] || (r[0] != '_' && r[|r| - 1] != '_')
    ensures NoDoubleUnderscore(r)
  {
    var f := Filter(KeptByFilter, name);
    FilteredShape(name);
    CollapseChars(f);
    CollapseNoDouble(f);
    TrimUnderscoreShape(CollapseSpaces(f));
    var r := Trim(CollapseSpaces(f), IsUnderscore);
    NameCharsNoSpace(r);
    r
  }

  /** The filter leaves name characters and whitespace, so no "_". */
  lemma FilteredShape(name: string)
    ensures forall i :: 0 <= i < |Filter(KeptByFilter, name)| ==>
              IsNameChar(Filter(KeptByFilter, name)[i]) || IsSpace(Filter(KeptByFilter, name)[i])
    ensures NoUnderscore(Filter(KeptByFilter, name))
  {
  }

  /** A string of name characters and "_" has no whitespace. */
  lemma NameCharsNoSpace(r: string)
    requires forall i :: 0 <= i < |r| ==> IsNameChar(r[i]) || r[i] == '_'
    ensures NoSpace(r)
  {
  }

  /** Stripping "_" from a string of name characters and "_" keeps those properties. */
  lemma {:induction false} TrimUnderscoreShape(c: string)
    requires forall i :: 0 <= i < |c| ==> IsNameChar(c[i]) || c[i] == '_'
    requires NoDoubleUnderscore(c)
    ensures forall i :: 0 <= i < |Trim(c, IsUnderscore)| ==>
              IsNameChar(Trim(c, IsUnderscore)[i]) || Trim(c, IsUnderscore)[i] == '_'
    ensures NoDoubleUnderscore(Trim(c, IsUnderscore))
    ensures Trim(c, IsUnderscore) == [] ||
              (Trim(c, IsUnderscore)[0] != '_' && Trim(c, IsUnderscore)[|Trim(c, IsUnderscore)| - 1] != '_')
  {
    var r := Trim(c, IsUnderscore);
    var lo := LeadingRun(c, IsUnderscore);
    assert r == c[lo..lo + |r|];
    InfixShape(c, lo, lo + |r|);
  }

  /** An infix of a string of name characters and "_" without "__" is one too. */
  lemma InfixShape(c: string, lo: nat, hi: nat)
    requires lo <= hi <= |c|
    requires forall i :: 0 <= i < |c| ==> IsNameChar(c[i]) || c[i] == '_'
    requires NoDoubleUnderscore(c)
    ensures forall i :: 0 <= i < hi - lo ==> IsNameChar(c[lo..hi][i]) || c[lo..hi][i] == '_'
    ensures NoDoubleUnderscore(c[lo..hi])
  {
    assert forall i :: 0 <= i < hi - lo ==> c[lo..hi][i] == c[lo + i];
  }

  /** `sanitize_filename` keeps every name character of its input, in order, and no other. */
  lemma {:induction false} SanitizeContent(name: string)
    ensures Filter(IsNameChar, Sanitize(name)) == Filter(IsNameChar, name)
  {
    var f := Filter(KeptByFilter, name);
    CollapseContent(f);
    TrimUnderscoreContent(CollapseSpaces(f));
    FilterOfFilter(IsNameChar, KeptByFilter, name);
  }

  /** Stripping "_" removes no name character. */
  lemma {:induction false} TrimUnderscoreContent(c: string)
    ensures Filter(IsNameChar, Trim(c, IsUnderscore)) == Filter(IsNameChar, c)
  {
    var r := Trim(c, IsUnderscore);
    var lo := LeadingRun(c, IsUnderscore);
    var pre, post := UnderscoreParts(c, lo, lo + |r|);
    FilterPadded(pre, r, post);
  }

  /** With only "_" outside `c[lo..hi]`, `c` is that slice padded with "_". */
  lemma UnderscoreParts(c: string, lo: nat, hi: nat) returns (pre: string, post: string)
    requires lo <= hi <= |c|
    requires forall i :: 0 <= i < lo ==> IsUnderscore(c[i])
    requires forall i :: hi <= i < |c| ==> IsUnderscore(c[i])
    ensures c == pre + c[lo..hi] + post
    ensures forall i :: 0 <= i < |pre| ==> pre[i] == '_'
    ensures forall i :: 0 <= i < |post| ==> post[i] == '_'
  {
    pre, post := c[..lo], c[hi..];
    SplitThree(c, lo, hi);
    UnderscoreSlice(c, 0, lo);
    UnderscoreSlice(c, hi, |c|);
    assert c[0..lo] == pre;
    assert c[hi..|c|] == post;
  }

  /** A slice of characters that all satisfy `IsUnderscore` consists of "_". */
  lemma UnderscoreSlice(c: string, lo: nat, hi: nat)
    requires lo <= hi <= |c|
    requires forall i :: lo <= i < hi ==> IsUnderscore(c[i])
    ensures forall i :: 0 <= i < hi - lo ==> c[lo..hi][i] == '_'
  {
    assert forall i :: 0 <= i < hi - lo ==> c[lo..hi][i] == c[lo + i];
  }

  /** Underscores around a string add no name characters. */
  lemma FilterPadded(pre: string, r: string, post: string)
    requires forall i :: 0 <= i < |pre| ==> pre[i] == '_'
    requires forall i :: 0 <= i < |post| ==> post[i] == '_'
    ensures Filter(IsNameChar, pre + r + post) == Filter(IsNameChar, r)
  {
    FilterNone(IsNameChar, pre);
    FilterNone(IsNameChar, post);
    FilterAppend(IsNameChar, pre + r, post);
    FilterAppend(IsNameChar, pre, r);
  }

  /** Filtering by `p` after a weaker `q` is filtering by `p` alone. */
  lemma {:induction false} FilterOfFilter(p: char -> bool, q: char -> bool, s: string)
    requires forall c :: p(c) ==> q(c)
    ensures Filter(p, Filter(q, s)) == Filter(p, s)
  {
    if s != [] {
      FilterOfFilter(p, q, s[1..]);
      if q(s[0]) {
        assert ([s[0]] + Filter(q, s[1..]))[1..] == Filter(q, s[1..]);
      }
    }
  }

  /** `sanitize_filename` is not idempotent: "_" is not in the kept class, so a
      second pass deletes the separators the first one introduced. */
  lemma SanitizeNotIdempotent()
    ensures Sanitize("a b") == "a_b"
    ensures Sanitize(Sanitize("a b")) == "ab"
  {
    SanitizeSpaced();
    SanitizeUnderscored();
  }

  lemma SanitizeSpaced()
    ensures Sanitize("a b") == "a_b"
  {
    SanitizeOneSpace('a', ' ', 'b');
  }

  /** Two name characters around one whitespace character come out joined by "_". */
  lemma SanitizeOneSpace(x: char, sp: char, y: char)
    requires IsNameChar(x) && IsSpace(sp) && IsNameChar(y)
    ensures Sanitize([x, sp, y]) == [x, '_', y]
  {
    SpaceIsNoName(sp);
    FilterKeepsAll(KeptByFilter, [x, sp, y]);
    NameIsNoSpace(x);
    NameIsNoSpace(y);
    CollapseOneSpace(x, sp, y);
    TrimKeepsEnds([x, '_', y], IsUnderscore);
  }

  lemma NameIsNoSpace(c: char)
    requires IsNameChar(c)
    ensures !IsSpace(c) && c != '_'
  {
  }

  /** Stripping leaves a string whose two ends are kept alone. */
  lemma TrimKeepsEnds(s: string, p: char -> bool)
    requires s != [] && !p(s[0]) && !p(s[|s| - 1])
    ensures Trim(s, p) == s
  {
    assert TrimLeft(s, p) == s;
    assert TrimRight(s, p) == s;
  }

  /** One whitespace character between two others becomes one "_". */
  lemma CollapseOneSpace(x: char, sp: char, y: char)
    requires !IsSpace(x) && IsSpace(sp) && !IsSpace(y)
    ensures CollapseSpaces([x, sp, y]) == [x, '_', y]
  {
    CollapseCons(x, [sp, y]);
    CollapseSpaceThenChar(sp, y);
    Triple(x, sp, y);
    Triple(x, '_', y);
  }

  /** Collapsing passes over a leading character that is not whitespace. */
  lemma CollapseCons(x: char, t: string)
    requires !IsSpace(x)
    ensures CollapseSpaces([x] + t) == [x] + CollapseSpaces(t)
  {
    assert ([x] + t)[1..] == t;
  }

  lemma Triple<T>(a: T, b: T, c: T)
    ensures [a] + [b, c] == [a, b, c]
  {
  }

  lemma CollapseSpaceThenChar(sp: char, y: char)
    requires IsSpace(sp) && !IsSpace(y)
    ensures CollapseSpaces([sp, y]) == ['_', y]
  {
    CollapseSpaceStart([sp, y]);
    TrimOneSpace(sp, y);
    CollapseNoSpace([y]);
  }

  lemma TrimOneSpace(sp: char, y: char)
    requires IsSpace(sp) && !IsSpace(y)
    ensures TrimLeft([sp, y], IsSpace) == [y]
  {
    assert [sp, y][1..] == [y];
  }

  lemma SanitizeUnderscored()
    ensures Sanitize("a_b") == "ab"
  {
    SanitizeOneUnderscore('a', 'b');
  }

  /** A "_" between two name characters is filtered out. */
  lemma SanitizeOneUnderscore(x: char, y: char)
    requires IsNameChar(x) && IsNameChar(y)
    ensures Sanitize([x, '_', y]) == [x, y]
  {
    NameIsNoSpace(x);
    NameIsNoSpace(y);
    FilterDropsUnderscore(x, y);
    CollapseNoSpace([x, y]);
    TrimNothing([x, y], IsUnderscore);
  }

  lemma FilterDropsUnderscore(x: char, y: char)
    requires IsNameChar(x) && IsNameChar(y)
    ensures Filter(KeptByFilter, [x, '_', y]) == [x, y]
  {
    assert [x, '_', y][1..] == ['_', y];
    assert ['_', y][1..] == [y];
    FilterKeepsAll(KeptByFilter, [y]);
  }

  /** Collapsing leaves a string without whitespace alone. */
  lemma {:induction false} CollapseNoSpace(s: string)
    requires NoSpace(s)
    ensures CollapseSpaces(s) == s
  {
    if s != [] {
      CollapseNoSpace(s[1..]);
    }
  }

  /** Stripping characters none of which occur leaves the string alone. */
  lemma TrimNothing(s: string, p: char -> bool)
    requires forall i :: 0 <= i < |s| ==> !p(s[i])
    ensures Trim(s, p) == s
  {
    assert TrimLeft(s, p) == s;
    assert TrimRight(s, p) == s;
  }

  /** The "_" joints of a join are not name characters. */
  lemma {:induction false} FilterJoin(ws: seq<string>)
    ensures Filter(IsNameChar, Join("_", ws)) == Filter(IsNameChar, Concat(ws))
  {
    if |ws| == 1 {
      assert ws[1..] == [];
      assert Concat(ws) == ws[0] + Concat([]) == ws[0];
    } else if |ws| > 1 {
      var rest := Join("_", ws[1..]);
      FilterJoin(ws[1..]);
      FilterAppend(IsNameChar, ws[0] + "_", rest);
      FilterAppend(IsNameChar, ws[0], "_");
      FilterNone(IsNameChar, "_");
      FilterAppend(IsNameChar, ws[0], Concat(ws[1..]));
    }
  }

  /** Joining words with "_" gives a string without whitespace. */
  lemma {:induction false} JoinNoSpace(ws: seq<string>)
    requires forall i :: 0 <= i < |ws| ==> IsWord(ws[i])
    ensures NoSpace(Join("_", ws))
  {
    if |ws| > 1 {
      JoinNoSpace(ws[1..]);
      var rest := Join("_", ws[1..]);
      assert Join("_", ws) == ws[0] + "_" + rest;
    }
  }

  /** The folder the voice recordings are kept in (`AUDIO_DIR`). */
  const AudioDir: string := "voice_records_mp3"

  /** `"_".join(transcription.split()[:4])`: no whitespace, and empty exactly
      for a blank transcript. Which words it carries into the file name is
      stated for the composed name, by `VoiceFileNameSpec`. */
  function FirstWords(transcript: string): (r: string)
    ensures NoSpace(r)
    ensures r == [] <==> AllSpace(transcript)
  {
    var ws := Take(Words(transcript), 4);
    JoinNoSpace(ws);
    JoinEmpty(ws);
    Join("_", ws)
  }

  /** Joining words gives nothing only for no words. */
  lemma JoinEmpty(ws: seq<string>)
    requires forall i :: 0 <= i < |ws| ==> IsWord(ws[i])
    ensures Join("_", ws) == [] <==> ws == []
  {
    if |ws| > 1 {
      assert Join("_", ws) == ws[0] + "_" + Join("_", ws[1..]);
    }
  }

  /** The file name of an archived voice recording: name characters only, then
      ".mp3". */
  function VoiceFileName(transcript: string): (r: string)
    ensures |r| >= 4 && r[|r| - 4..] == ".mp3"
    ensures forall i :: 0 <= i < |r| - 4 ==> IsNameChar(r[i])
    ensures forall i :: 0 <= i < |r| ==> r[i] != '/'
  {
    var ws := Take(Words(transcript), 4);
    assert forall i :: 0 <= i < |ws| ==> IsWord(ws[i]);
    SanitizeJoinedWords(ws);
    var stem := Sanitize(FirstWords(transcript));
    Mp3NameNoSlash(stem);
    stem + ".mp3"
  }

  /** `os.path.join(AUDIO_DIR, mp3_filename)`: a path whose basename is the
      file name. */
  function VoicePath(transcript: string): (r: string)
    ensures Basename(r) == VoiceFileName(transcript)
  {
    BasenameOfJoin(AudioDir, VoiceFileName(transcript));
    AudioDir + "/" + VoiceFileName(transcript)
  }

  /** The stem of a voice file name has no "_": the joining "_"s are removed by
      the filter, so the stem is the name characters of the first (at most four)
      words run together, and a blank transcript gives the name ".mp3". */
  lemma {:induction false} VoiceFileNameSpec(transcript: string)
    ensures VoiceFileName(transcript) ==
              Filter(IsNameChar, Concat(Take(Words(transcript), 4))) + ".mp3"
    ensures NoUnderscore(Sanitize(FirstWords(transcript)))
    ensures AllSpace(transcript) ==> VoiceFileName(transcript) == ".mp3"
  {
    var ws := Take(Words(transcript), 4);
    assert forall i :: 0 <= i < |ws| ==> IsWord(ws[i]);
    SanitizeJoinedWords(ws);
    if AllSpace(transcript) {
      assert ws == [];
    }
  }

  /** Sanitizing words joined by "_" leaves just their name characters, run together. */
  lemma SanitizeJoinedWords(ws: seq<string>)
    requires forall i :: 0 <= i < |ws| ==> IsWord(ws[i])
    ensures Sanitize(Join("_", ws)) == Filter(IsNameChar, Concat(ws))
    ensures NoUnderscore(Sanitize(Join("_", ws)))
  {
    var j := Join("_", ws);
    JoinNoSpace(ws);
    FilterAgree(KeptByFilter, IsNameChar, j);
    FilterJoin(ws);
    var f := Filter(IsNameChar, Concat(ws));
    NameFilterShape(Concat(ws));
    CollapseNoSpace(f);
    TrimNothing(f, IsUnderscore);
  }

  /** The name characters of a string include neither whitespace nor "_". */
  lemma NameFilterShape(s: string)
    ensures NoSpace(Filter(IsNameChar, s))
    ensures NoUnderscore(Filter(IsNameChar, s))
  {
  }

  /** `os.path.basename`: what follows the last "/". */
  function Basename(path: string): (b: string)
    ensures |b| <= |path| && b == path[|path| - |b|..]
    ensures forall i :: 0 <= i < |b| ==> b[i] != '/'
    ensures |b| < |path| ==> path[|path| - |b| - 1] == '/'
  {
    if path == [] || path[|path| - 1] == '/' then []
    else
      var b := Basename(path[..|path| - 1]);
      assert path[..|path| - 1][|path| - 1 - |b|..] == path[|path| - 1 - |b|..|path| - 1];
      b + [path[|path| - 1]]
  }

  /** The basename of `dir + "/" + name` is `name` when `name` has no "/". */
  lemma {:induction false} BasenameOfJoin(dir: string, name: string)
    requires forall i :: 0 <= i < |name| ==> name[i] != '/'
    ensures Basename(dir + "/" + name) == name
    decreases |name|
  {
    var p := dir + "/" + name;
    if name == [] {
      assert p[|p| - 1] == '/';
    } else {
      var shorter := name[..|name| - 1];
      assert p[..|p| - 1] == dir + "/" + shorter;
      BasenameOfJoin(dir, shorter);
      assert shorter + [name[|name| - 1]] == name;
    }
  }

  /** A stem of name characters with ".mp3" after it has no "/". */
  lemma Mp3NameNoSlash(f: string)
    requires forall i :: 0 <= i < |f| ==> IsNameChar(f[i])
    ensures forall i :: 0 <= i < |f + ".mp3"| ==> (f + ".mp3")[i] != '/'
  {
  }

  /** Collapsing distributes over a concatenation that does not cut a whitespace run. */
  lemma {:induction false} CollapseAppend(a: string, b: string)
    requires a == [] || b == [] || !IsSpace(a[|a| - 1]) || !IsSpace(b[0])
    ensures CollapseSpaces(a + b) == CollapseSpaces(a) + CollapseSpaces(b)
    decreases |a|
  {
    if a == [] {
      assert a + b == b;
    } else if !IsSpace(a[0]) {
      CollapseAppend(a[1..], b);
      CollapseAppendChar(a, b);
    } else {
      var ta := TrimLeft(a, IsSpace);
      if ta != [] {
        assert ta[|ta| - 1] == a[|a| - 1];
        CollapseAppend(ta, b);
      }
      CollapseAppendSpace(a, b);
    }
  }

  /** The step of `CollapseAppend` past a character that is not whitespace. */
  lemma CollapseAppendChar(a: string, b: string)
    requires a != [] && !IsSpace(a[0])
    requires CollapseSpaces(a[1..] + b) == CollapseSpaces(a[1..]) + CollapseSpaces(b)
    ensures CollapseSpaces(a + b) == CollapseSpaces(a) + CollapseSpaces(b)
  {
    ConsAppend(a, b);
    CollapseCharStart(a + b);
    CollapseCharStart(a);
    Associative([a[0]], CollapseSpaces(a[1..]), CollapseSpaces(b));
  }

  lemma ConsAppend(a: string, b: string)
    requires a != []
    ensures (a + b)[0] == a[0] && (a + b)[1..] == a[1..] + b
  {
  }

  /** The step of `CollapseAppend` past a whitespace run. */
  lemma CollapseAppendSpace(a: string, b: string)
    requires a != [] && IsSpace(a[0])
    requires b == [] || !IsSpace(a[|a| - 1]) || !IsSpace(b[0])
    requires TrimLeft(a, IsSpace) != [] ==>
               CollapseSpaces(TrimLeft(a, IsSpace) + b)
               == CollapseSpaces(TrimLeft(a, IsSpace)) + CollapseSpaces(b)
    ensures CollapseSpaces(a + b) == CollapseSpaces(a) + CollapseSpaces(b)
  {
    var ta := TrimLeft(a, IsSpace);
    TrimLeftAppend(a, b, IsSpace);
    ConsAppend(a, b);
    CollapseSpaceStart(a + b);
    CollapseSpaceStart(a);
    if ta == [] {
      CollapseAfterRun(a, b);
      assert CollapseSpaces(a) == "_";
      assert CollapseSpaces(a + b) == "_" + CollapseSpaces(b);
    } else {
      assert CollapseSpaces(a + b) == "_" + CollapseSpaces(ta + b);
      Associative("_", CollapseSpaces(ta), CollapseSpaces(b));
    }
  }

  /** A whitespace run with nothing after it, or followed by a non-whitespace character. */
  lemma CollapseAfterRun(a: string, b: string)
    requires TrimLeft(a, IsSpace) == []
    requires b == [] || !IsSpace(b[0])
    ensures TrimLeft(b, IsSpace) == b
    ensures CollapseSpaces(TrimLeft(a, IsSpace)) == []
  {
  }

  /** Trimming the front of a concatenation. */
  lemma {:induction false} TrimLeftAppend(a: string, b: string, p: char -> bool)
    ensures TrimLeft(a, p) == [] ==> TrimLeft(a + b, p) == TrimLeft(b, p)
    ensures TrimLeft(a, p) != [] ==> TrimLeft(a + b, p) == TrimLeft(a, p) + b
  {
    if a == [] {
      assert a + b == b;
    } else if p(a[0]) {
      assert (a + b)[1..] == a[1..] + b;
      TrimLeftAppend(a[1..], b, p);
    }
  }

  /** A string that starts and ends with a non-whitespace character collapses to
      its words joined by "_". */
  lemma {:induction false} CollapseInner(m: string)
    requires m != [] && !IsSpace(m[0]) && !IsSpace(m[|m| - 1])
    ensures CollapseSpaces(m) == Join("_", Words(m))
    decreases |m|
  {
    var k := WordLength(m);
    if k == |m| {
      assert m[..k] == m;
      CollapseNoSpace(m);
      WordsOfWord(m, "");
      assert m + "" == m;
    } else {
      SplitAfterWord(m, k);
      var t := TrimLeft(m[k..], IsSpace);
      CollapseInner(t);
      CollapseInnerStep(m, k);
    }
  }

  /** The inductive step of `CollapseInner`: the first word, one "_" for the
      whitespace after it, then the rest. */
  lemma {:induction false} CollapseInnerStep(m: string, k: nat)
    requires m != [] && !IsSpace(m[0]) && !IsSpace(m[|m| - 1])
    requires k == WordLength(m) && k < |m|
    requires TrimLeft(m[k..], IsSpace) != [] && !IsSpace(TrimLeft(m[k..], IsSpace)[0])
    requires CollapseSpaces(TrimLeft(m[k..], IsSpace)) == Join("_", Words(TrimLeft(m[k..], IsSpace)))
    ensures CollapseSpaces(m) == Join("_", Words(m))
  {
    var t := TrimLeft(m[k..], IsSpace);
    StepCollapse(m, k);
    StepWords(m, k);
    SplitAfterWordWords(t);
    JoinCons(m[..k], Words(t));
  }

  lemma {:induction false} StepCollapse(m: string, k: nat)
    requires m != [] && !IsSpace(m[0])
    requires k == WordLength(m) && k < |m|
    ensures CollapseSpaces(m) == m[..k] + "_" + CollapseSpaces(TrimLeft(m[k..], IsSpace))
  {
    var w, rest := m[..k], m[k..];
    WordSplit(m, k);
    CollapseNoSpace(w);
    CollapseAppend(w, rest);
    CollapseSpaceStart(rest);
    assert CollapseSpaces(m) == w + ("_" + CollapseSpaces(TrimLeft(rest, IsSpace)));
    Associative(w, "_", CollapseSpaces(TrimLeft(rest, IsSpace)));
  }

  /** The first word of a string that does not end with it, and the whitespace after it. */
  lemma WordSplit(m: string, k: nat)
    requires m != [] && !IsSpace(m[0])
    requires k == WordLength(m) && k < |m|
    ensures m == m[..k] + m[k..]
    ensures m[..k] != [] && NoSpace(m[..k])
    ensures m[k..] != [] && IsSpace(m[k..][0])
  {
  }

  lemma CollapseSpaceStart(s: string)
    requires s != [] && IsSpace(s[0])
    ensures CollapseSpaces(s) == "_" + CollapseSpaces(TrimLeft(s, IsSpace))
  {
  }

  lemma {:induction false} StepWords(m: string, k: nat)
    requires m != [] && !IsSpace(m[0])
    requires k == WordLength(m) && k < |m|
    ensures Words(m) == [m[..k]] + Words(TrimLeft(m[k..], IsSpace))
  {
    var w, rest := m[..k], m[k..];
    var t := TrimLeft(rest, IsSpace);
    WordSplit(m, k);
    var sp := LeadingSpace(rest);
    WordsSkipLeading(sp, t);
    WordsOfWord(w, rest);
  }

  lemma {:induction false} SplitAfterWordWords(t: string)
    requires t != [] && !IsSpace(t[0])
    ensures Words(t) != []
  {
  }

  /** What follows the first word of a string whose last character is not
      whitespace: whitespace and then a non-empty remainder of the same kind. */
  lemma SplitAfterWord(m: string, k: nat)
    requires m != [] && !IsSpace(m[|m| - 1])
    requires k == WordLength(m) && k < |m|
    ensures TrimLeft(m[k..], IsSpace) != []
    ensures !IsSpace(TrimLeft(m[k..], IsSpace)[0])
    ensures TrimLeft(m[k..], IsSpace)[|TrimLeft(m[k..], IsSpace)| - 1] == m[|m| - 1]
    ensures |TrimLeft(m[k..], IsSpace)| < |m|
  {
    var rest := m[k..];
    var t := TrimLeft(rest, IsSpace);
    assert rest[|rest| - 1] == m[|m| - 1];
    assert IsSpace(rest[0]);
  }

  /** Joining a word in front of a non-empty list. */
  lemma JoinCons(w: string, ws: seq<string>)
    requires ws != []
    ensures Join("_", [w] + ws) == w + "_" + Join("_", ws)
  {
    assert ([w] + ws)[1..] == ws;
  }

  /** "_" padding around a string with non-"_" ends is exactly what stripping "_" removes. */
  lemma TrimUnderscorePadded(l: string, x: string, t: string)
    requires forall i :: 0 <= i < |l| ==> l[i] == '_'
    requires forall i :: 0 <= i < |t| ==> t[i] == '_'
    requires x != [] && x[0] != '_' && x[|x| - 1] != '_'
    ensures Trim(l + x + t, IsUnderscore) == x
  {
    var c := l + x + t;
    var r := Trim(c, IsUnderscore);
    var lo := LeadingRun(c, IsUnderscore);
    assert c[|l|] == x[0];
    assert forall i :: 0 <= i < |l| ==> c[i] == '_';
    assert lo == |l|;
    assert c[|l| + |x| - 1] == x[|x| - 1];
    assert forall i :: |l| + |x| <= i < |c| ==> c[i] == '_';
    assert lo + |r| == |l| + |x|;
    assert c[|l|..|l| + |x|] == x;
  }

  /** Collapsing a non-empty run of whitespace gives a single "_". */
  lemma CollapseAllSpace(s: string)
    requires AllSpace(s)
    ensures s != [] ==> CollapseSpaces(s) == "_"
    ensures s == [] ==> CollapseSpaces(s) == ""
  {
    if s != [] {
      assert TrimLeft(s, IsSpace) == [];
    }
  }

  /** A reference definition: `sanitize_filename(name)` is
      `"_".join(filtered.split())`, where `filtered` is `name` with every character
      outside the kept class deleted. */
  lemma {:induction false} SanitizeIsJoinOfWords(name: string)
    ensures Sanitize(name) == Join("_", Words(Filter(KeptByFilter, name)))
  {
    var f := Filter(KeptByFilter, name);
    assert NoUnderscore(f);
    if AllSpace(f) {
      CollapseAllSpace(f);
      assert TrimLeft("_", IsUnderscore) == "";
      assert Words(f) == [];
    } else {
      var pre, m, post := SpaceParts(f);
      SanitizeParts(pre, m, post);
    }
  }

  /** A string with a non-whitespace character is a core with non-whitespace
      ends between two runs of whitespace. */
  lemma {:induction false} SpaceParts(f: string) returns (pre: string, m: string, post: string)
    requires !AllSpace(f)
    ensures f == pre + m + post
    ensures AllSpace(pre) && AllSpace(post)
    ensures m != [] && !IsSpace(m[0]) && !IsSpace(m[|m| - 1])
  {
    m := Strip(f);
    var lo := LeadingRun(f, IsSpace);
    pre, post := f[..lo], f[lo + |m|..];
    StripBlank(f);
    SplitThree(f, lo, lo + |m|);
  }

  /** `SanitizeIsJoinOfWords` once the filtered name is cut into its parts. */
  lemma {:induction false} SanitizeParts(pre: string, m: string, post: string)
    requires AllSpace(pre) && AllSpace(post)
    requires m != [] && !IsSpace(m[0]) && !IsSpace(m[|m| - 1])
    requires NoUnderscore(pre + m + post)
    ensures Trim(CollapseSpaces(pre + m + post), IsUnderscore) == Join("_", Words(pre + m + post))
  {
    CollapseParts(pre, m, post);
    CollapseInner(m);
    CoreEnds(pre, m, post);
    RunCollapsesToUnderscores(pre);
    RunCollapsesToUnderscores(post);
    TrimUnderscorePadded(CollapseSpaces(pre), CollapseSpaces(m), CollapseSpaces(post));
    WordsParts(pre, m, post);
  }

  /** The collapsed core starts and ends with its own first and last characters, neither of them "_". */
  lemma CoreEnds(pre: string, m: string, post: string)
    requires m != [] && !IsSpace(m[0]) && !IsSpace(m[|m| - 1])
    requires NoUnderscore(pre + m + post)
    ensures CollapseSpaces(m) != []
    ensures CollapseSpaces(m)[0] != '_' && CollapseSpaces(m)[|CollapseSpaces(m)| - 1] != '_'
  {
    var f := pre + m + post;
    CollapseEnds(m);
    assert m[0] == f[|pre|] && m[|m| - 1] == f[|pre| + |m| - 1];
  }

  /** A whitespace run collapses to nothing but "_". */
  lemma RunCollapsesToUnderscores(s: string)
    requires AllSpace(s)
    ensures forall i :: 0 <= i < |CollapseSpaces(s)| ==> CollapseSpaces(s)[i] == '_'
  {
    CollapseAllSpace(s);
  }

  lemma {:induction false} CollapseParts(pre: string, m: string, post: string)
    requires m != [] && !IsSpace(m[0]) && !IsSpace(m[|m| - 1])
    ensures CollapseSpaces(pre + m + post) == CollapseSpaces(pre) + CollapseSpaces(m) + CollapseSpaces(post)
  {
    CollapseAppend(pre + m, post);
    CollapseAppend(pre, m);
  }
}

=== FILE: interaction_log.dfy ===
/**
 The interaction log `records.json` of `log_interaction`: a JSON array read in
 full, extended by one record, and written back in full. What reading the file
 yields is modelled abstractly; the timestamp is an input.
 */
module InteractionLog {
  import opened Wrappers

  /** One logged request/response pair. */
  datatype Record = Record(timestamp: string, request: string, response: string)

  /** An element of the stored array: a record the bot wrote, or, in a file
      edited by hand, any other JSON value, kept as its text. */
  datatype Entry = Logged(record: Record) | OtherJson(json: string)

  /** The local log file, as reading it turns out. */
  datatype LogFile =
    | Absent                        // `os.path.isfile` is false
    | Unreadable                    // opening or reading raises `IOError`
    | Malformed                     // `json.load` raises `JSONDecodeError`
    | NotUtf8                       // decoding raises `UnicodeDecodeError`
    | NotAList                      // well-formed JSON that is not an array
    | JsonArray(entries: seq<Entry>)

  /** Exceptions `log_interaction` lets escape to its caller. */
  datatype LogError =
    | UndecodableLog                // `UnicodeDecodeError` is not among the caught exceptions
    | WriteFailed                   // `open(LOG_FILE, "w")` or `json.dump` raised

  /** How writing the array back goes. Opening with mode "w" empties the file
      first, so a `json.dump` that raises (an unencodable character, a full
      disk) leaves an empty file or a cut-off array. With `ensure_ascii=False`
      the Cyrillic text is written as multi-byte UTF-8, and a cut inside one of
      those characters leaves a file that no longer decodes. When only the
      closing `close()` raises, the whole array is already on disk. */
  datatype Write =
    | Written                       // open, dump and close all succeed
    | OpenFails                     // `open(LOG_FILE, "w")` raises: the file is untouched
    | DumpFails(midCharacter: bool) // the file was emptied, then the write raised; `midCharacter`
                                    // when it stopped inside a multi-byte character
    | CloseFails                    // the array was written out, then closing the file raised

  /** The file after `log_interaction`, and the exception it raised, if any. */
  datatype Outcome = Outcome(file: LogFile, raised: Option<LogError>)

  /** The entry built from `datetime.utcnow().isoformat()` and the pair. */
  function NewRecord(isoNow: string, request: string, response: string): (r: Record)
    ensures |r.timestamp| == |isoNow| + 1
    ensures r.timestamp[|isoNow|] == 'Z' && r.timestamp[..|isoNow|] == isoNow
    ensures r.request == request && r.response == response
  {
    Record(isoNow + "Z", request, response)
  }

  /** Reading an existing file: the `try` block with its `except` clause and the
      `isinstance(data, list)` check. */
  function ReadExisting(file: LogFile): (r: Result<seq<Entry>, LogError>)
    requires !file.Absent?
    ensures r.Failure? <==> file.NotUtf8?
    ensures r.Failure? ==> r.error == UndecodableLog
    ensures r.Success? && file.JsonArray? ==> r.value == file.entries
    ensures r.Success? && !file.JsonArray? ==> r.value == []
  {
    match file
    case Unreadable => Success([])
    case Malformed => Success([])
    case NotUtf8 => Failure(UndecodableLog)
    case NotAList => Success([])
    case JsonArray(es) => Success(es)
  }

  /** The array `log_interaction` writes: the old array followed by the new entry,
      or the new entry alone when there was no readable array. */
  function Append(file: LogFile, entry: Record): (r: Result<seq<Entry>, LogError>)
    ensures r.Success? <==> !file.NotUtf8?
    ensures r.Success? ==> |r.value| >= 1 && r.value[|r.value| - 1] == Logged(entry)
    ensures r.Success? && file.JsonArray? ==> r.value[..|r.value| - 1] == file.entries
    ensures r.Success? && !file.JsonArray? ==> |r.value| == 1
  {
    if file.Absent? then Success([Logged(entry)])
    else
      match ReadExisting(file)
      case Failure(e) => Failure(e)
      case Success(data) => Success(data + [Logged(entry)])
  }

  /** The local part of `log_interaction`: append, then write the whole array
      back. On success the file holds the new array. A file that cannot be
      decoded raises before anything is written. A failed write raises, and
      leaves the file untouched, empty or cut off, or complete, depending on
      how far it got. */
  function LogInteraction(file: LogFile, entry: Record, write: Write): (r: Outcome)
    ensures r.raised.None? <==> !file.NotUtf8? && write.Written?
    ensures r.raised.Some? ==> r.raised.value == if file.NotUtf8? then UndecodableLog else WriteFailed
    ensures !file.NotUtf8? && (write.Written? || write.CloseFails?) ==>
              r.file.JsonArray? && Append(file, entry) == Success(r.file.entries)
    ensures file.NotUtf8? || write.OpenFails? ==> r.file == file
    ensures !file.NotUtf8? && write.DumpFails? ==>
              && (r.file.Malformed? || r.file.NotUtf8?)
              && (r.file.NotUtf8? <==> write.midCharacter)
  {
    match Append(file, entry)
    case Failure(e) => Outcome(file, Some(e))
    case Success(data) =>
      match write
      case Written => Outcome(JsonArray(data), None)
      case OpenFails => Outcome(file, Some(WriteFailed))
      case DumpFails(mid) => Outcome(if mid then NotUtf8 else Malformed, Some(WriteFailed))
      case CloseFails => Outcome(JsonArray(data), Some(WriteFailed))
  }

  /** The entries written for a list of records. */
  function AsEntries(rs: seq<Record>): (es: seq<Entry>)
    ensures |es| == |rs|
    ensures forall i :: 0 <= i < |rs| ==> es[i] == Logged(rs[i])
  {
    if rs == [] then [] else [Logged(rs[0])] + AsEntries(rs[1..])
  }

  /** The file after logging each record in turn, every write succeeding. */
  function LogAll(file: LogFile, rs: seq<Record>): LogFile
    decreases |rs|
  {
    if rs == [] then file
    else
      var o := LogInteraction(file, rs[0], Written);
      if o.raised.None? then LogAll(o.file, rs[1..]) else file
  }

  /** Append-only: logging records after a readable array keeps the array and adds
      exactly those records, in order. */
  lemma {:induction false} LogAllExtends(es: seq<Entry>, rs: seq<Record>)
    ensures LogAll(JsonArray(es), rs) == JsonArray(es + AsEntries(rs))
    decreases |rs|
  {
    if rs == [] {
      assert es + AsEntries(rs) == es;
    } else {
      var next := es + [Logged(rs[0])];
      LogOnto(es, rs[0]);
      LogAllExtends(next, rs[1..]);
      EntriesAfter(es, rs);
    }
  }

  /** One successful append onto a readable array. */
  lemma LogOnto(es: seq<Entry>, r: Record)
    ensures LogInteraction(JsonArray(es), r, Written) == Outcome(JsonArray(es + [Logged(r)]), None)
  {
  }

  lemma EntriesAfter(es: seq<Entry>, rs: seq<Record>)
    requires rs != []
    ensures es + [Logged(rs[0])] + AsEntries(rs[1..]) == es + AsEntries(rs)
  {
    assert AsEntries(rs) == [Logged(rs[0])] + AsEntries(rs[1..]);
  }

  /** Logging N records starting with no file, and reading the file back, gives
      exactly those N records in insertion order. */
  lemma LogReplay(rs: seq<Record>)
    requires rs != []
    ensures LogAll(Absent, rs) == JsonArray(AsEntries(rs))
    ensures ReadExisting(LogAll(Absent, rs)) == Success(AsEntries(rs))
  {
    assert LogInteraction(Absent, rs[0], Written) == Outcome(JsonArray([Logged(rs[0])]), None);
    LogAllExtends([Logged(rs[0])], rs[1..]);
    assert AsEntries(rs) == [Logged(rs[0])] + AsEntries(rs[1..]);
  }

  /** A file that cannot be read or is not an array loses its history: after one
      append it holds the new record only. */
  lemma HistoryLost(file: LogFile, entry: Record)
    requires file.Unreadable? || file.Malformed? || file.NotAList?
    ensures LogInteraction(file, entry, Written) == Outcome(JsonArray([Logged(entry)]), None)
  {
    assert [] + [Logged(entry)] == [Logged(entry)];
  }

  /** A write that fails after `open` at a character boundary costs the whole
      history: the call raises, and the next successful call finds a file it
      cannot parse and starts the array afresh with its own record. */
  lemma DumpFailureLosesHistory(file: LogFile, first: Record, next: Record)
    requires !file.NotUtf8?
    ensures var o := LogInteraction(file, first, DumpFails(false));
            && o.raised == Some(WriteFailed)
            && LogInteraction(o.file, next, Written) == Outcome(JsonArray([Logged(next)]), None)
  {
    HistoryLost(Malformed, next);
  }

  /** A write cut inside a multi-byte character blocks the log for good: the
      call raises, and every later call, however its write would go, raises
      `UnicodeDecodeError` and leaves the file as it is. */
  lemma TornWriteBlocksLog(file: LogFile, first: Record, next: Record, write: Write)
    requires !file.NotUtf8?
    ensures var o := LogInteraction(file, first, DumpFails(true));
            && o.raised == Some(WriteFailed)
            && LogInteraction(o.file, next, write) == Outcome(o.file, Some(UndecodableLog))
  {
  }

  /** A `close()` that raises after the array was written keeps the record: the
      call raises, yet the next successful call extends the array holding it. */
  lemma CloseFailureKeepsRecord(es: seq<Entry>, first: Record, next: Record)
    ensures var o := LogInteraction(JsonArray(es), first, CloseFails);
            && o.raised == Some(WriteFailed)
            && LogInteraction(o.file, next, Written) == Outcome(JsonArray(es + [Logged(first), Logged(next)]), None)
  {
    assert es + [Logged(first)] + [Logged(next)] == es + [Logged(first), Logged(next)];
  }
}

=== FILE: pipeline.dfy ===
/**
 The three message handlers `cmd_start`, `handle_text` and `handle_voice` as
 traces of the effects they have, in order. Every foreign call (Telegram,
 ffmpeg, Whisper, the chat model, the file system, Drive) is an input saying
 what it returns or whether it raises. An exception the handler does not catch
 ends the run: the trace stops there and the run records why.
 */
module Pipeline {
  import opened Wrappers
  import opened Text
  import Segmenter
  import FileNames
  import InteractionLog
  import Drive
  import Assessment

  /** `LOG_FILE`. */
  const LogPath: string := "records.json"

  /** The heading of the transcript reply. */
  const TranscriptHeading: string := "Расшифровка:\n"

  /** The greeting `cmd_start` answers with. */
  const Greeting: string :=
    "Привет, аспирант! Я бот для оценки устной академической речи. "
    + "Отправь текст или голосовое сообщение, и я выдам расшифровку и оценку по шаблону."

  /** What is stored on Drive: a voice recording or the log array. */
  datatype Blob = Mp3(audio: seq<int>) | LogArray(entries: seq<InteractionLog.Entry>)

  /** The state that outlives a handler: the local log file and the Drive store. */
  datatype World = World(log: InteractionLog.LogFile, drive: Drive.Store<Blob>)

  /** The settings a handler reads: `GOOGLE_DRIVE_FOLDER_ID` and the prompt texts. */
  datatype Config = Config(folder: string, prompt: Assessment.Prompt)

  /** What the foreign calls of one run return. */
  datatype Calls = Calls(
    isoNow: string,                // `datetime.utcnow().isoformat()`
    mp3: Option<seq<int>>,         // download and ffmpeg: the mp3, or None when either raises
    transcription: Option<string>, // Whisper's text, or None when the call raises
    reply: Option<string>,         // the chat model's reply, or None when the call raises
    logWrite: InteractionLog.Write, // how writing `records.json` goes
    audioUpload: UploadCall,       // how uploading the mp3 goes
    logUpload: UploadCall)         // how uploading the log goes

  /** How one `upload_file_to_gdrive` call goes. */
  datatype UploadCall =
    | Stored      // `execute()` returns the new or updated file's id
    | Refused     // the call raises before Drive changed anything
    | ReplyLost   // Drive carried the call out, then it raised (a lost response, a timed-out last chunk)

  /** What a handler does that someone can observe. */
  datatype Effect =
    | Typing                                    // `send_chat_action(..., "typing")`
    | Answer(text: string)                      // `message.answer(text)`
    | Uploaded(path: string, id: Drive.Id)      // `upload_file_to_gdrive` returned `id`
    | UploadFailed(path: string)                // the upload raised and was logged
    | Asked(request: Assessment.Request)        // the chat completion request
    | LogWritten(record: InteractionLog.Record) // `records.json` now ends with `record`

  /** Why a run stopped early. */
  datatype Abort =
    | TranscodeFailed
    | TranscriptionFailed
    | AssessmentFailed
    | LogFailed(error: InteractionLog.LogError)

  /** A finished run: its effects in order, the state left behind, and the
      exception that ended it, if one did. */
  datatype Run = Run(effects: seq<Effect>, world: World, abort: Option<Abort>)

  predicate ValidWorld(w: World) {
    Drive.Valid(w.drive)
  }

  /** An upload wrapped in `try`/`except Exception`: an exception is only
      reported, whether or not Drive had already carried the call out. */
  function GuardedUpload(s: Drive.Store<Blob>, path: string, b: Blob, folder: string, isLog: bool,
                         call: UploadCall)
    : (r: (Drive.Store<Blob>, Effect))
    requires Drive.Valid(s)
    ensures Drive.Valid(r.0)
    ensures call.Stored? <==> r.1.Uploaded?
    ensures (r.1.Uploaded? || r.1.UploadFailed?) && r.1.path == path
    ensures call.Refused? ==> r.0 == s
    ensures !call.Refused? ==> r.0 == Drive.Upload(s, path, b, folder, isLog).0
    ensures call.Stored? ==> r.1.id == Drive.Upload(s, path, b, folder, isLog).1
  {
    if call.Refused? then (s, UploadFailed(path))
    else
      var u := Drive.Upload(s, path, b, folder, isLog);
      (u.0, if call.Stored? then Uploaded(path, u.1) else UploadFailed(path))
  }

  /** The messages a list of texts is sent as. */
  function Answers(texts: seq<string>): (effs: seq<Effect>)
    ensures |effs| == |texts|
    ensures forall i :: 0 <= i < |texts| ==> effs[i] == Answer(texts[i])
  {
    if texts == [] then [] else [Answer(texts[0])] + Answers(texts[1..])
  }

  /** The texts of the messages among `effs`, in order. */
  function Answered(effs: seq<Effect>): (texts: seq<string>)
    ensures |texts| <= |effs|
  {
    if effs == [] then []
    else if effs[0].Answer? then [effs[0].text] + Answered(effs[1..])
    else Answered(effs[1..])
  }

  /** The closing step of both handlers: one message when the result fits the
      limit, `send_long_message` otherwise. */
  function Deliver(result: string): (effs: seq<Effect>)
    ensures effs == Answers(Segmenter.SendLongMessage(result))
    ensures Answered(effs) == Segmenter.SendLongMessage(result)
    ensures Concat(Answered(effs)) == result
  {
    AnsweredAnswers(Segmenter.SendLongMessage(result));
    if |result| <= Segmenter.MessageLimit then [Answer(result)]
    else Answers(Segmenter.SendLongMessage(result))
  }

  /** `log_interaction`: append the record locally, then upload the log. An
      undecodable log or a failed write raises out of it, before the upload; a
      failed upload does not raise. */
  function LogStep(w: World, cfg: Config, calls: Calls, request: string, response: string): (r: Run)
    requires ValidWorld(w)
    ensures ValidWorld(r.world)
    ensures r.abort.None? <==> !w.log.NotUtf8? && calls.logWrite.Written?
    ensures r.abort.Some? ==> r.abort.value.LogFailed? && r.effects == [] && r.world.drive == w.drive
    ensures r.abort.None? ==> && |r.effects| == 2
                              && r.effects[0] == LogWritten(InteractionLog.NewRecord(calls.isoNow, request, response))
                              && (r.effects[1].Uploaded? || r.effects[1].UploadFailed?)
                              && r.effects[1].path == LogPath
  {
    var rec := InteractionLog.NewRecord(calls.isoNow, request, response);
    var o := InteractionLog.LogInteraction(w.log, rec, calls.logWrite);
    if o.raised.Some? then Run([], World(o.file, w.drive), Some(LogFailed(o.raised.value)))
    else
      var up := GuardedUpload(w.drive, LogPath, LogArray(o.file.entries), cfg.folder, true, calls.logUpload);
      Run([LogWritten(rec), up.1], World(o.file, up.0), None)
  }

  /** The common tail of both handlers, after `done` has happened: ask for the
      assessment, log it, deliver it. */
  function AssessLogDeliver(w: World, cfg: Config, calls: Calls, request: string, done: seq<Effect>)
    : (r: Run)
    requires ValidWorld(w)
    ensures ValidWorld(r.world)
    ensures calls.reply.None? ==> r.world == w
    ensures r.abort.Some? ==> r.world.drive == w.drive
  {
    var asked := done + [Asked(Assessment.CompletionRequest(cfg.prompt, request))];
    match calls.reply
    case None => Run(asked, w, Some(AssessmentFailed))
    case Some(reply) =>
      var result := Assessment.Assess(reply);
      var l := LogStep(w, cfg, calls, request, result);
      if l.abort.Some? then Run(asked, l.world, l.abort)
      else Run(asked + l.effects + Deliver(result), l.world, None)
  }

  /** `cmd_start`. */
  function CmdStart(w: World): (r: Run)
    ensures r.world == w && r.abort == None
    ensures |r.effects| > 0 && r.effects[0] == Typing && Answered(r.effects) == [Greeting]
  {
    Run([Typing, Answer(Greeting)], w, None)
  }

  /** `handle_text` for the message text `text`. */
  function HandleText(w: World, cfg: Config, calls: Calls, text: string): (r: Run)
    requires ValidWorld(w)
    ensures ValidWorld(r.world)
    ensures |r.effects| >= 2 && r.effects[0] == Typing
    ensures r.effects[1] == Asked(Assessment.CompletionRequest(cfg.prompt, text))
    ensures r.abort.Some? ==> r.abort.value.AssessmentFailed? || r.abort.value.LogFailed?
  {
    TailStart(w, cfg, calls, text, [Typing]);
    var r := AssessLogDeliver(w, cfg, calls, text, [Typing]);
    PrefixAt(r.effects, [Typing], 0);
    r
  }

  /** Whether the voice message is transcribed: the download, ffmpeg and Whisper
      all get through. */
  predicate Transcribed(calls: Calls) {
    calls.mp3.Some? && calls.transcription.Some?
  }

  /** The transcript `handle_voice` works with: Whisper's text, stripped. */
  function Transcript(calls: Calls): (t: string)
    requires Transcribed(calls)
    ensures t == [] || (!IsSpace(t[0]) && !IsSpace(t[|t| - 1]))
    ensures var s := calls.transcription.value;
            var n := LeadingRun(s, IsSpace);
            && n + |t| <= |s| && t == s[n..n + |t|]
            && AllSpace(s[..n]) && AllSpace(s[n + |t|..])
    ensures t == [] <==> AllSpace(calls.transcription.value)
  {
    StripBlank(calls.transcription.value);
    Strip(calls.transcription.value)
  }

  /** Renaming the mp3 after the transcript and uploading it as a new file; a
      failed upload is only reported. The log file is not touched. */
  function Archive(w: World, cfg: Config, calls: Calls): (r: (World, Effect))
    requires ValidWorld(w) && Transcribed(calls)
    ensures ValidWorld(r.0) && r.0.log == w.log
    ensures (r.1.Uploaded? || r.1.UploadFailed?) && r.1.path == FileNames.VoicePath(Transcript(calls))
    ensures r.1.Uploaded? <==> calls.audioUpload.Stored?
    ensures calls.audioUpload.Refused? ==> r.0 == w
  {
    var up := GuardedUpload(w.drive, FileNames.VoicePath(Transcript(calls)), Mp3(calls.mp3.value),
                            cfg.folder, false, calls.audioUpload);
    (World(w.log, up.0), up.1)
  }

  /** `handle_voice`: transcribe, answer with the transcript, archive the mp3,
      then assess the transcript like a text message. */
  function HandleVoice(w: World, cfg: Config, calls: Calls): (r: Run)
    requires ValidWorld(w)
    ensures ValidWorld(r.world)
    ensures |r.effects| >= 1 && r.effects[0] == Typing
    ensures r.abort == Some(TranscodeFailed) <==> calls.mp3.None?
    ensures r.abort == Some(TranscriptionFailed) <==> calls.mp3.Some? && calls.transcription.None?
    ensures !Transcribed(calls) ==> r.effects == [Typing] && r.world == w
    ensures Transcribed(calls) ==> && |r.effects| >= 4
                                   && r.effects[1] == Answer(TranscriptHeading + Transcript(calls))
                                   && r.effects[3] == Asked(Assessment.CompletionRequest(cfg.prompt, Transcript(calls)))
  {
    if calls.mp3.None? then Run([Typing], w, Some(TranscodeFailed))
    else if calls.transcription.None? then Run([Typing], w, Some(TranscriptionFailed))
    else
      var t := Transcript(calls);
      var a := Archive(w, cfg, calls);
      var done := [Typing, Answer(TranscriptHeading + t), a.1];
      TailStart(a.0, cfg, calls, t, done);
      var r := AssessLogDeliver(a.0, cfg, calls, t, done);
      PrefixAt(r.effects, done, 0);
      PrefixAt(r.effects, done, 1);
      r
  }

  /** What every tail does: it keeps what happened before it, asks next, and
      can be stopped only by the chat call or by `log_interaction`. */
  lemma TailStart(w: World, cfg: Config, calls: Calls, request: string, done: seq<Effect>)
    requires ValidWorld(w)
    ensures var r := AssessLogDeliver(w, cfg, calls, request, done);
            && |r.effects| > |done| && r.effects[..|done|] == done
            && r.effects[|done|] == Asked(Assessment.CompletionRequest(cfg.prompt, request))
            && (r.abort.Some? ==> r.abort.value.AssessmentFailed? || r.abort.value.LogFailed?)
  {
    var q := Asked(Assessment.CompletionRequest(cfg.prompt, request));
    if calls.reply.None? {
      AskedNext(done, q, [], []);
    } else {
      var result := Assessment.Assess(calls.reply.value);
      var l := LogStep(w, cfg, calls, request, result);
      if l.abort.Some? {
        AskedNext(done, q, [], []);
      } else {
        AskedNext(done, q, l.effects, Deliver(result));
      }
    }
  }

  /** The request comes right after what was done, whatever follows it. */
  lemma AskedNext(done: seq<Effect>, q: Effect, x: seq<Effect>, y: seq<Effect>)
    ensures var e := done + [q];
            |e| > |done| && e[..|done|] == done && e[|done|] == q
    ensures var e := done + [q] + x + y;
            |e| > |done| && e[..|done|] == done && e[|done|] == q
  {
  }

  /** An element of a prefix. */
  lemma PrefixAt(e: seq<Effect>, done: seq<Effect>, i: nat)
    requires |done| <= |e| && e[..|done|] == done && i < |done|
    ensures e[i] == done[i]
  {
    assert e[..|done|][i] == e[i];
  }

  /** The messages sent for `texts` carry exactly those texts. */
  lemma {:induction false} AnsweredAnswers(texts: seq<string>)
    ensures Answered(Answers(texts)) == texts
  {
    if texts != [] {
      AnsweredAnswers(texts[1..]);
      assert Answers(texts)[1..] == Answers(texts[1..]);
    }
  }

  /** The messages of two traces run one after the other. */
  lemma {:induction false} AnsweredAppend(a: seq<Effect>, b: seq<Effect>)
    ensures Answered(a + b) == Answered(a) + Answered(b)
  {
    if a != [] {
      AnsweredAppend(a[1..], b);
      assert (a + b)[1..] == a[1..] + b;
    } else {
      assert a + b == b;
    }
  }

  /** A trace that answers nothing. */
  lemma NoAnswers(effs: seq<Effect>)
    requires forall i :: 0 <= i < |effs| ==> !effs[i].Answer?
    ensures Answered(effs) == []
  {
    if effs != [] {
      NoAnswers(effs[1..]);
    }
  }

  /** Whether the assessment and `log_interaction` get through without an
      exception escaping: the chat call answers, the log is decodable and the
      write succeeds. Drive plays no part. */
  predicate TailSucceeds(w: World, calls: Calls) {
    calls.reply.Some? && !w.log.NotUtf8? && calls.logWrite.Written?
  }

  /** Whether `log` is what a tail that raised can leave of the log file
      `w.log`, for the record of `request`. The file is as it was when the chat
      call, the log read or `open` failed. A dump that failed part way leaves a
      file that does not parse, or that does not even decode when the cut fell
      inside a multi-byte character. A `close()` that failed leaves the
      appended array. */
  predicate LeftAfterRaise(w: World, calls: Calls, request: string, log: InteractionLog.LogFile) {
    && (calls.reply.None? || w.log.NotUtf8? || calls.logWrite.OpenFails? ==> log == w.log)
    && (calls.reply.Some? && !w.log.NotUtf8? && calls.logWrite.DumpFails? ==>
          && (log.Malformed? || log.NotUtf8?)
          && (log.NotUtf8? <==> calls.logWrite.midCharacter))
    && (calls.reply.Some? && !w.log.NotUtf8? && calls.logWrite.CloseFails? ==>
          log == AppendedLog(w.log, InteractionLog.NewRecord(calls.isoNow, request, Assessment.Assess(calls.reply.value))))
  }

  /** The log file after a run appended `rec`. */
  function AppendedLog(file: InteractionLog.LogFile, rec: InteractionLog.Record): (r: InteractionLog.LogFile)
    requires !file.NotUtf8?
    ensures r.JsonArray?
    ensures file.JsonArray? ==> r.entries == file.entries + [InteractionLog.Logged(rec)]
    ensures !file.JsonArray? ==> r.entries == [InteractionLog.Logged(rec)]
  {
    var a := InteractionLog.Append(file, rec);
    assert a.value == a.value[..|a.value| - 1] + [a.value[|a.value| - 1]];
    InteractionLog.JsonArray(a.value)
  }

  /** A tail that gets through: the request, the log record with its upload, then
      the segments of the stripped reply; the log has the one record appended. */
  lemma TailSuccess(w: World, cfg: Config, calls: Calls, request: string, done: seq<Effect>)
    requires ValidWorld(w) && TailSucceeds(w, calls)
    ensures var r := AssessLogDeliver(w, cfg, calls, request, done);
            var result := Assessment.Assess(calls.reply.value);
            var rec := InteractionLog.NewRecord(calls.isoNow, request, result);
            var file := AppendedLog(w.log, rec);
            var up := GuardedUpload(w.drive, LogPath, LogArray(file.entries), cfg.folder, true, calls.logUpload);
            && r.abort == None
            && r.effects == done + [Asked(Assessment.CompletionRequest(cfg.prompt, request)), LogWritten(rec), up.1]
                            + Answers(Segmenter.SendLongMessage(result))
            && r.world == World(file, up.0)
  {
    var result := Assessment.Assess(calls.reply.value);
    var rec := InteractionLog.NewRecord(calls.isoNow, request, result);
    var file := AppendedLog(w.log, rec);
    var up := GuardedUpload(w.drive, LogPath, LogArray(file.entries), cfg.folder, true, calls.logUpload);
    var asked := done + [Asked(Assessment.CompletionRequest(cfg.prompt, request))];
    LogStepSuccess(w, cfg, calls, request, result);
    var r := AssessLogDeliver(w, cfg, calls, request, done);
    assert r == Run(asked + [LogWritten(rec), up.1] + Deliver(result), World(file, up.0), None);
    OneThenTwo(done, Asked(Assessment.CompletionRequest(cfg.prompt, request)), LogWritten(rec), up.1);
  }

  lemma OneThenTwo(done: seq<Effect>, a: Effect, b: Effect, c: Effect)
    ensures done + [a] + [b, c] == done + [a, b, c]
  {
  }

  /** `log_interaction` that gets through appends the record and uploads the log. */
  lemma LogStepSuccess(w: World, cfg: Config, calls: Calls, request: string, response: string)
    requires ValidWorld(w) && !w.log.NotUtf8? && calls.logWrite.Written?
    ensures var rec := InteractionLog.NewRecord(calls.isoNow, request, response);
            var file := AppendedLog(w.log, rec);
            var up := GuardedUpload(w.drive, LogPath, LogArray(file.entries), cfg.folder, true, calls.logUpload);
            LogStep(w, cfg, calls, request, response) == Run([LogWritten(rec), up.1], World(file, up.0), None)
  {
    var rec := InteractionLog.NewRecord(calls.isoNow, request, response);
    var o := InteractionLog.LogInteraction(w.log, rec, calls.logWrite);
    assert o == InteractionLog.Outcome(AppendedLog(w.log, rec), None);
  }

  /** A tail that does not get through: the request is the last effect, Drive
      does not change, and the log file is left as `LeftAfterRaise` says. */
  lemma TailAbort(w: World, cfg: Config, calls: Calls, request: string, done: seq<Effect>)
    requires ValidWorld(w) && !TailSucceeds(w, calls)
    ensures var r := AssessLogDeliver(w, cfg, calls, request, done);
            && r.effects == done + [Asked(Assessment.CompletionRequest(cfg.prompt, request))]
            && r.world.drive == w.drive
            && LeftAfterRaise(w, calls, request, r.world.log)
            && r.abort == Some(if calls.reply.None? then AssessmentFailed
                               else if w.log.NotUtf8? then LogFailed(InteractionLog.UndecodableLog)
                               else LogFailed(InteractionLog.WriteFailed))
  {
  }

  /** `handle_text` finishes exactly when the tail gets through, whatever Drive does. */
  lemma TextFinishes(w: World, cfg: Config, calls: Calls, text: string)
    requires ValidWorld(w)
    ensures HandleText(w, cfg, calls, text).abort == None <==> TailSucceeds(w, calls)
  {
    TailFinishes(w, cfg, calls, text, [Typing]);
  }

  /** The tail finishes exactly when it gets through. */
  lemma TailFinishes(w: World, cfg: Config, calls: Calls, request: string, done: seq<Effect>)
    requires ValidWorld(w)
    ensures AssessLogDeliver(w, cfg, calls, request, done).abort == None <==> TailSucceeds(w, calls)
  {
    if TailSucceeds(w, calls) {
      TailSuccess(w, cfg, calls, request, done);
    } else {
      TailAbort(w, cfg, calls, request, done);
    }
  }

  /** The messages a finished `handle_text` sends are the segments of the
      stripped reply, which put together give the reply back. */
  lemma TextMessages(w: World, cfg: Config, calls: Calls, text: string)
    requires ValidWorld(w) && TailSucceeds(w, calls)
    ensures var r := HandleText(w, cfg, calls, text);
            var result := Assessment.Assess(calls.reply.value);
            && Answered(r.effects) == Segmenter.SendLongMessage(result)
            && Concat(Answered(r.effects)) == result
  {
    var result := Assessment.Assess(calls.reply.value);
    var rec := InteractionLog.NewRecord(calls.isoNow, text, result);
    var e3 := TextEffects(w, cfg, calls, text);
    AnsweredAfter(Assessment.CompletionRequest(cfg.prompt, text), rec, e3, Segmenter.SendLongMessage(result));
  }

  /** A finished `handle_text`, in order: typing, the request about the text,
      the log record of the text and the stripped reply, the log upload, then
      the reply in segments. The log has that one record appended. */
  lemma TextEffects(w: World, cfg: Config, calls: Calls, text: string) returns (e3: Effect)
    requires ValidWorld(w) && TailSucceeds(w, calls)
    ensures var r := HandleText(w, cfg, calls, text);
            var result := Assessment.Assess(calls.reply.value);
            var rec := InteractionLog.NewRecord(calls.isoNow, text, result);
            && r.effects == [Typing, Asked(Assessment.CompletionRequest(cfg.prompt, text)), LogWritten(rec), e3]
                            + Answers(Segmenter.SendLongMessage(result))
            && e3.Uploaded? == calls.logUpload.Stored? && (e3.Uploaded? || e3.UploadFailed?)
            && r.world.log == AppendedLog(w.log, rec)
  {
    var result := Assessment.Assess(calls.reply.value);
    var rec := InteractionLog.NewRecord(calls.isoNow, text, result);
    TailSuccess(w, cfg, calls, text, [Typing]);
    var file := AppendedLog(w.log, rec);
    e3 := GuardedUpload(w.drive, LogPath, LogArray(file.entries), cfg.folder, true, calls.logUpload).1;
    OneAndThree(Typing, Asked(Assessment.CompletionRequest(cfg.prompt, text)), LogWritten(rec), e3);
  }

  lemma OneAndThree(a: Effect, b: Effect, c: Effect, d: Effect)
    ensures [a] + [b, c, d] == [a, b, c, d]
  {
  }

  /** The messages of a trace shaped like a finished `handle_text`. */
  lemma AnsweredAfter(q: Assessment.Request, rec: InteractionLog.Record, e3: Effect, ms: seq<string>)
    requires !e3.Answer?
    ensures Answered([Typing, Asked(q), LogWritten(rec), e3] + Answers(ms)) == ms
  {
    var head := [Typing, Asked(q), LogWritten(rec), e3];
    NoAnswers(head);
    AnsweredAppend(head, Answers(ms));
    AnsweredAnswers(ms);
  }

  /** A `handle_text` that raises has answered nothing and left Drive alone; the
      log file is left as `LeftAfterRaise` says. */
  lemma TextAbortSilent(w: World, cfg: Config, calls: Calls, text: string)
    requires ValidWorld(w) && !TailSucceeds(w, calls)
    ensures var r := HandleText(w, cfg, calls, text);
            && r.abort.Some?
            && Answered(r.effects) == []
            && r.world.drive == w.drive
            && LeftAfterRaise(w, calls, text, r.world.log)
  {
    TailAbort(w, cfg, calls, text, [Typing]);
    NoAnswers([Typing] + [Asked(Assessment.CompletionRequest(cfg.prompt, text))]);
  }

  /** A `handle_text` whose write is cut inside a multi-byte character stops
      every later `handle_text` too: each raises before sending anything,
      whatever its own calls do, and leaves the log file as it is. */
  lemma TornLogBlocksText(w: World, cfg: Config, calls: Calls, text: string, later: Calls, next: string)
    requires ValidWorld(w) && calls.reply.Some? && !w.log.NotUtf8?
    requires calls.logWrite == InteractionLog.DumpFails(true)
    ensures var r1 := HandleText(w, cfg, calls, text);
            var r2 := HandleText(r1.world, cfg, later, next);
            && r1.abort == Some(LogFailed(InteractionLog.WriteFailed))
            && r2.abort == Some(if later.reply.None? then AssessmentFailed
                                else LogFailed(InteractionLog.UndecodableLog))
            && Answered(r2.effects) == []
            && r2.world.log == r1.world.log
  {
    TailAbort(w, cfg, calls, text, [Typing]);
    var r1 := HandleText(w, cfg, calls, text);
    TextAbortSilent(r1.world, cfg, later, next);
    TailAbort(r1.world, cfg, later, next, [Typing]);
  }

  /** A `handle_text` whose write is cut inside a multi-byte character stops
      every later `handle_voice` that gets as far as the log: it raises with
      `UnicodeDecodeError` after answering with the transcript only, and leaves
      the log file as it is. One that stops earlier answers nothing. */
  lemma TornLogBlocksVoice(w: World, cfg: Config, calls: Calls, text: string, later: Calls)
    requires ValidWorld(w) && calls.reply.Some? && !w.log.NotUtf8?
    requires calls.logWrite == InteractionLog.DumpFails(true)
    ensures var r1 := HandleText(w, cfg, calls, text);
            var r2 := HandleVoice(r1.world, cfg, later);
            && r1.abort == Some(LogFailed(InteractionLog.WriteFailed))
            && r2.abort.Some?
            && (Transcribed(later) && later.reply.Some? ==>
                  r2.abort == Some(LogFailed(InteractionLog.UndecodableLog)))
            && Answered(r2.effects) == (if Transcribed(later) then [TranscriptHeading + Transcript(later)] else [])
            && r2.world.log == r1.world.log
  {
    TailAbort(w, cfg, calls, text, [Typing]);
    UndecodableLogBlocksVoice(HandleText(w, cfg, calls, text).world, cfg, later);
  }

  /** A `handle_voice` on an undecodable log never finishes: once transcribed it
      raises in `log_interaction` unless the chat call failed first, having sent
      the transcript only, and it leaves the log file as it is. */
  lemma UndecodableLogBlocksVoice(w: World, cfg: Config, calls: Calls)
    requires ValidWorld(w) && w.log.NotUtf8?
    ensures var r := HandleVoice(w, cfg, calls);
            && r.abort.Some?
            && (Transcribed(calls) && calls.reply.Some? ==>
                  r.abort == Some(LogFailed(InteractionLog.UndecodableLog)))
            && Answered(r.effects) == (if Transcribed(calls) then [TranscriptHeading + Transcript(calls)] else [])
            && r.world.log == w.log
  {
    if Transcribed(calls) {
      var t := Transcript(calls);
      var a := Archive(w, cfg, calls);
      VoiceAbortAfterTranscript(w, cfg, calls);
      VoiceTail(w, cfg, calls);
      TailAbort(a.0, cfg, calls, t, [Typing, Answer(TranscriptHeading + t), a.1]);
    } else {
      NoAnswers([Typing]);
    }
  }

  /** `handle_voice` finishes exactly when the transcription and the tail get
      through; neither Drive upload can stop it. */
  lemma VoiceFinishes(w: World, cfg: Config, calls: Calls)
    requires ValidWorld(w)
    ensures HandleVoice(w, cfg, calls).abort == None <==> Transcribed(calls) && TailSucceeds(w, calls)
  {
    if Transcribed(calls) {
      var t := Transcript(calls);
      var a := Archive(w, cfg, calls);
      VoiceTail(w, cfg, calls);
      TailFinishes(a.0, cfg, calls, t, [Typing, Answer(TranscriptHeading + t), a.1]);
    }
  }

  /** A failed download, transcoding or transcription stops `handle_voice` right
      after the typing notice: nothing is answered, uploaded, asked or logged. */
  lemma VoiceTranscodeAbort(w: World, cfg: Config, calls: Calls)
    requires ValidWorld(w) && !Transcribed(calls)
    ensures var r := HandleVoice(w, cfg, calls);
            && r.effects == [Typing]
            && r.world == w
            && r.abort == Some(if calls.mp3.None? then TranscodeFailed else TranscriptionFailed)
  {
  }

  /** The messages a finished `handle_voice` sends: the transcript reply, then
      the segments of the stripped assessment, which put together give it back. */
  lemma VoiceMessages(w: World, cfg: Config, calls: Calls)
    requires ValidWorld(w) && Transcribed(calls) && TailSucceeds(w, calls)
    ensures var r := HandleVoice(w, cfg, calls);
            var result := Assessment.Assess(calls.reply.value);
            && Answered(r.effects) == [TranscriptHeading + Transcript(calls)] + Segmenter.SendLongMessage(result)
            && Concat(Answered(r.effects)[1..]) == result
  {
    var t := Transcript(calls);
    var result := Assessment.Assess(calls.reply.value);
    var rec := InteractionLog.NewRecord(calls.isoNow, t, result);
    var e2, e5 := VoiceEffects(w, cfg, calls);
    AnsweredAround(TranscriptHeading + t, e2, Assessment.CompletionRequest(cfg.prompt, t), rec, e5,
                   Segmenter.SendLongMessage(result));
  }

  /** A finished `handle_voice`, in order: typing, the transcript reply, the mp3
      upload, the request about the transcript, the log record, the log upload,
      then the assessment in segments. The log has that one record appended. */
  lemma VoiceEffects(w: World, cfg: Config, calls: Calls) returns (e2: Effect, e5: Effect)
    requires ValidWorld(w) && Transcribed(calls) && TailSucceeds(w, calls)
    ensures var r := HandleVoice(w, cfg, calls);
            var t := Transcript(calls);
            var result := Assessment.Assess(calls.reply.value);
            var rec := InteractionLog.NewRecord(calls.isoNow, t, result);
            && r.abort == None
            && r.effects == [Typing, Answer(TranscriptHeading + t), e2,
                             Asked(Assessment.CompletionRequest(cfg.prompt, t)), LogWritten(rec), e5]
                            + Answers(Segmenter.SendLongMessage(result))
            && e2.Uploaded? == calls.audioUpload.Stored? && (e2.Uploaded? || e2.UploadFailed?)
            && e2.path == FileNames.VoicePath(t)
            && e5.Uploaded? == calls.logUpload.Stored? && (e5.Uploaded? || e5.UploadFailed?)
            && e5.path == LogPath
            && r.world.log == AppendedLog(w.log, rec)
  {
    var t := Transcript(calls);
    var result := Assessment.Assess(calls.reply.value);
    var rec := InteractionLog.NewRecord(calls.isoNow, t, result);
    var a := Archive(w, cfg, calls);
    var done := [Typing, Answer(TranscriptHeading + t), a.1];
    VoiceTail(w, cfg, calls);
    TailSuccess(a.0, cfg, calls, t, done);
    var file := AppendedLog(a.0.log, rec);
    var up := GuardedUpload(a.0.drive, LogPath, LogArray(file.entries), cfg.folder, true, calls.logUpload);
    e2, e5 := a.1, up.1;
    var q := Assessment.CompletionRequest(cfg.prompt, t);
    ThreeAndThree(Typing, Answer(TranscriptHeading + t), e2, Asked(q), LogWritten(rec), e5);
  }

  lemma ThreeAndThree(a: Effect, b: Effect, c: Effect, d: Effect, e: Effect, f: Effect)
    ensures [a, b, c] + [d, e, f] == [a, b, c, d, e, f]
  {
  }

  /** Once transcribed, `handle_voice` is the archive step followed by the tail. */
  lemma VoiceTail(w: World, cfg: Config, calls: Calls)
    requires ValidWorld(w) && Transcribed(calls)
    ensures var a := Archive(w, cfg, calls);
            var t := Transcript(calls);
            HandleVoice(w, cfg, calls)
              == AssessLogDeliver(a.0, cfg, calls, t, [Typing, Answer(TranscriptHeading + t), a.1])
  {
  }

  /** The messages of a trace shaped like a finished `handle_voice`. */
  lemma AnsweredAround(x: string, e2: Effect, q: Assessment.Request, rec: InteractionLog.Record, e5: Effect,
                       ms: seq<string>)
    requires !e2.Answer? && !e5.Answer?
    ensures Answered([Typing, Answer(x), e2, Asked(q), LogWritten(rec), e5] + Answers(ms)) == [x] + ms
  {
    var head := [Typing, Answer(x), e2, Asked(q), LogWritten(rec), e5];
    assert head == [Typing, Answer(x)] + head[2..];
    NoAnswers(head[2..]);
    AnsweredAppend([Typing, Answer(x)], head[2..]);
    AnsweredAppend(head, Answers(ms));
    AnsweredAnswers(ms);
  }

  /** A `handle_voice` that raises after transcribing has answered with the
      transcript only and kept the archived mp3; the log file is left as
      `LeftAfterRaise` says. */
  lemma VoiceAbortAfterTranscript(w: World, cfg: Config, calls: Calls)
    requires ValidWorld(w) && Transcribed(calls) && !TailSucceeds(w, calls)
    ensures var r := HandleVoice(w, cfg, calls);
            && r.abort.Some?
            && Answered(r.effects) == [TranscriptHeading + Transcript(calls)]
            && r.world.drive == Archive(w, cfg, calls).0.drive
            && LeftAfterRaise(w, calls, Transcript(calls), r.world.log)
  {
    var t := Transcript(calls);
    var a := Archive(w, cfg, calls);
    var done := [Typing, Answer(TranscriptHeading + t), a.1];
    VoiceTail(w, cfg, calls);
    TailAbort(a.0, cfg, calls, t, done);
    AnsweredBefore(TranscriptHeading + t, a.1, Assessment.CompletionRequest(cfg.prompt, t));
  }

  /** The messages of a trace shaped like a `handle_voice` that raised after the
      request. */
  lemma AnsweredBefore(x: string, e2: Effect, q: Assessment.Request)
    requires !e2.Answer?
    ensures Answered([Typing, Answer(x), e2] + [Asked(q)]) == [x]
  {
    assert [Typing, Answer(x), e2] + [Asked(q)] == [Typing, Answer(x)] + [e2, Asked(q)];
    NoAnswers([e2, Asked(q)]);
    AnsweredAppend([Typing, Answer(x)], [e2, Asked(q)]);
  }

  /** The log is uploaded under its own name. */
  lemma LogPathBasename()
    ensures FileNames.Basename(LogPath) == LogPath
  {
    assert forall i :: 0 <= i < |LogPath| ==> LogPath[i] != '/';
  }

  /** An archive step that reached Drive creates one new object: the mp3 under
      its voice file name, in the folder. It is reported as uploaded only when
      the call returned; a lost reply is reported as a failure all the same. */
  lemma ArchiveCreates(w: World, cfg: Config, calls: Calls) returns (id: Drive.Id)
    requires ValidWorld(w) && Transcribed(calls) && !calls.audioUpload.Refused?
    ensures var a := Archive(w, cfg, calls);
            var path := FileNames.VoicePath(Transcript(calls));
            && a.1 == (if calls.audioUpload.Stored? then Uploaded(path, id) else UploadFailed(path))
            && id !in w.drive.objects
            && id in a.0.drive.objects
            && a.0.drive.objects[id]
               == Drive.Obj(FileNames.VoiceFileName(Transcript(calls)), Drive.ParentsFor(cfg.folder),
                            Mp3(calls.mp3.value), false)
  {
    var path := FileNames.VoicePath(Transcript(calls));
    Drive.UploadCreates(w.drive, path, Mp3(calls.mp3.value), cfg.folder, false);
    id := Drive.Upload(w.drive, path, Mp3(calls.mp3.value), cfg.folder, false).1;
  }

  /** Uploading the log leaves every object of another name as it was. */
  lemma LogUploadKeeps(s: Drive.Store<Blob>, b: Blob, folder: string, call: UploadCall, id: Drive.Id)
    requires Drive.Valid(s) && id in s.objects && s.objects[id].name != LogPath
    ensures var up := GuardedUpload(s, LogPath, b, folder, true, call);
            id in up.0.objects && up.0.objects[id] == s.objects[id]
  {
    if !call.Refused? {
      assert Drive.Valid(s);
      LogPathBasename();
    }
  }

  /** A voice file name is never the log's name: one ends in ".mp3". */
  lemma VoiceNameNotLog(t: string)
    ensures FileNames.VoiceFileName(t) != LogPath
  {
    FileNames.VoiceFileNameSpec(t);
    var n := FileNames.VoiceFileName(t);
    assert n[|n| - 1] == '3';
  }

  /** A transcribed voice message whose mp3 upload reached Drive leaves the mp3
      on Drive under a new id, named after the transcript, in the folder,
      whatever happens after: a failing assessment or log does not undo it, and
      the log upload does not overwrite it. The trace shows the id only when the
      upload call returned. */
  lemma VoiceArchived(w: World, cfg: Config, calls: Calls) returns (id: Drive.Id)
    requires ValidWorld(w) && Transcribed(calls) && !calls.audioUpload.Refused?
    ensures var r := HandleVoice(w, cfg, calls);
            var path := FileNames.VoicePath(Transcript(calls));
            && |r.effects| > 2
            && r.effects[2] == (if calls.audioUpload.Stored? then Uploaded(path, id) else UploadFailed(path))
            && id !in w.drive.objects
            && id in r.world.drive.objects
            && r.world.drive.objects[id]
               == Drive.Obj(FileNames.VoiceFileName(Transcript(calls)), Drive.ParentsFor(cfg.folder),
                            Mp3(calls.mp3.value), false)
  {
    VoiceTail(w, cfg, calls);
    id := ArchiveCreates(w, cfg, calls);
    var t := Transcript(calls);
    var a := Archive(w, cfg, calls);
    VoiceNameNotLog(t);
    ArchiveSurvives(a.0, cfg, calls, t, a.1, id);
  }

  /** The tail after the archive step keeps the archive effect `e` and every
      object not named like the log. */
  lemma ArchiveSurvives(w: World, cfg: Config, calls: Calls, t: string, e: Effect, id: Drive.Id)
    requires ValidWorld(w) && id in w.drive.objects && w.drive.objects[id].name != LogPath
    ensures var r := AssessLogDeliver(w, cfg, calls, t, [Typing, Answer(TranscriptHeading + t), e]);
            && |r.effects| > 2
            && r.effects[2] == e
            && id in r.world.drive.objects
            && r.world.drive.objects[id] == w.drive.objects[id]
  {
    var done := [Typing, Answer(TranscriptHeading + t), e];
    TailKeeps(w, cfg, calls, t, done, id);
    PrefixAt(AssessLogDeliver(w, cfg, calls, t, done).effects, done, 2);
  }

  /** The tail keeps what happened before it, and every Drive object not named
      like the log. */
  lemma TailKeeps(w: World, cfg: Config, calls: Calls, request: string, done: seq<Effect>, id: Drive.Id)
    requires ValidWorld(w) && id in w.drive.objects && w.drive.objects[id].name != LogPath
    ensures var r := AssessLogDeliver(w, cfg, calls, request, done);
            && |done| <= |r.effects| && r.effects[..|done|] == done
            && id in r.world.drive.objects && r.world.drive.objects[id] == w.drive.objects[id]
  {
    if TailSucceeds(w, calls) {
      var up := TailDrive(w, cfg, calls, request, done);
      LogUploadKeeps(w.drive, up.1, cfg.folder, calls.logUpload, id);
    } else {
      TailAbort(w, cfg, calls, request, done);
    }
  }

  /** A tail that gets through extends `done`, and leaves Drive as the log
      upload of the blob `up.1` leaves it. */
  lemma TailDrive(w: World, cfg: Config, calls: Calls, request: string, done: seq<Effect>)
      returns (up: (Drive.Store<Blob>, Blob))
    requires ValidWorld(w) && TailSucceeds(w, calls)
    ensures var r := AssessLogDeliver(w, cfg, calls, request, done);
            && |done| <= |r.effects| && r.effects[..|done|] == done
            && up.0 == GuardedUpload(w.drive, LogPath, up.1, cfg.folder, true, calls.logUpload).0
            && r.world.drive == up.0
  {
    TailSuccess(w, cfg, calls, request, done);
    var result := Assessment.Assess(calls.reply.value);
    var rec := InteractionLog.NewRecord(calls.isoNow, request, result);
    var b := LogArray(AppendedLog(w.log, rec).entries);
    up := (GuardedUpload(w.drive, LogPath, b, cfg.folder, true, calls.logUpload).0, b);
    var effs := AssessLogDeliver(w, cfg, calls, request, done).effects;
    var mid := [Asked(Assessment.CompletionRequest(cfg.prompt, request)), LogWritten(rec), effs[|done| + 2]];
    PrefixKept(done, mid, Answers(Segmenter.SendLongMessage(result)));
  }

  /** Neither handler ever makes a second `records.json` in the folder, so the
      log upload always finds the one log there is, whatever order Drive lists
      matches in. */
  lemma HandlersKeepOneLog(w: World, cfg: Config, calls: Calls, text: string)
    requires ValidWorld(w) && Drive.Unique(w.drive, LogPath, cfg.folder)
    ensures Drive.Unique(HandleText(w, cfg, calls, text).world.drive, LogPath, cfg.folder)
    ensures Drive.Unique(HandleVoice(w, cfg, calls).world.drive, LogPath, cfg.folder)
  {
    TailKeepsUnique(w, cfg, calls, text, [Typing]);
    if Transcribed(calls) {
      var t := Transcript(calls);
      var a := Archive(w, cfg, calls);
      VoiceTail(w, cfg, calls);
      if !calls.audioUpload.Refused? {
        VoiceNameNotLog(t);
        Drive.OtherUploadKeepsUnique(w.drive, FileNames.VoicePath(t), Mp3(calls.mp3.value), cfg.folder, false,
                                     LogPath, cfg.folder);
      }
      TailKeepsUnique(a.0, cfg, calls, t, [Typing, Answer(TranscriptHeading + t), a.1]);
    }
  }

  /** The tail keeps at most one log in the folder. */
  lemma TailKeepsUnique(w: World, cfg: Config, calls: Calls, request: string, done: seq<Effect>)
    requires ValidWorld(w) && Drive.Unique(w.drive, LogPath, cfg.folder)
    ensures Drive.Unique(AssessLogDeliver(w, cfg, calls, request, done).world.drive, LogPath, cfg.folder)
  {
    if TailSucceeds(w, calls) {
      var up := TailDrive(w, cfg, calls, request, done);
      if !calls.logUpload.Refused? {
        LogPathBasename();
        Drive.LogUploadKeepsUnique(w.drive, LogPath, up.1, cfg.folder);
      }
    } else {
      TailAbort(w, cfg, calls, request, done);
    }
  }

  lemma PrefixKept(a: seq<Effect>, b: seq<Effect>, c: seq<Effect>)
    ensures (a + b + c)[..|a|] == a
    ensures b != [] ==> (a + b + c)[|a|] == b[0]
  {
  }
}

=== FILE: segmenter.dfy ===
/**
 The delivery segmenter of `send_long_message`: a reply that fits the Telegram
 limit is sent whole; a longer one is cut into lines by Python's
 `splitlines(keepends=True)` and the lines are packed greedily into chunks.
 */
module Segmenter {
  import opened Text

  /** `TELEGRAM_MESSAGE_LIMIT`. */
  const MessageLimit: nat := 4000

  /** The line boundaries recognised by Python's `str.splitlines`. */
  predicate IsLineBreak(c: char) {
    || c == '\n' || c == '\r' || c == '\U{0B}' || c == '\U{0C}'
    || ('\U{1C}' <= c <= '\U{1E}')
    || c == '\U{85}' || c == '\U{2028}' || c == '\U{2029}'
  }

  predicate NoBreak(s: string) {
    forall i :: 0 <= i < |s| ==> !IsLineBreak(s[i])
  }

  /** One element of `splitlines(keepends=True)`: non-empty, and free of line
      breaks except for its own terminator, which is one break or "\r\n". */
  predicate IsLine(l: string) {
    && l != []
    && (|| NoBreak(l[..|l| - 1])
        || (|l| >= 2 && l[|l| - 2] == '\r' && l[|l| - 1] == '\n' && NoBreak(l[..|l| - 2])))
  }

  predicate Terminated(l: string)
    requires l != []
  {
    IsLineBreak(l[|l| - 1])
  }

  /** A line ending in a bare "\r" followed by one starting with "\n": the pair
      would have been a single "\r\n" terminator. */
  predicate SplitsCrLf(a: string, b: string)
    requires a != [] && b != []
  {
    a[|a| - 1] == '\r' && b[0] == '\n'
  }

  /** The shape of a `splitlines(keepends=True)` result: lines, all but the last
      terminated, and no "\r\n" pair torn apart. */
  predicate WellSplit(ls: seq<string>) {
    && (forall i :: 0 <= i < |ls| ==> IsLine(ls[i]))
    && (forall i :: 0 <= i < |ls| - 1 ==> Terminated(ls[i]) && !SplitsCrLf(ls[i], ls[i + 1]))
  }

  /** `e` ends the line that starts at `i`: either there is no line break from
      `i` on and `e` is the end of `s`, or `s[i..e]` is free of breaks but for its
      terminator, which is a single break (and not the "\r" of a "\r\n") or "\r\n". */
  predicate EndsLine(s: string, i: nat, e: nat)
    requires i <= e <= |s|
  {
    || (e == |s| && NoBreak(s[i..]))
    || (i < e && IsLineBreak(s[e - 1]) && NoBreak(s[i..e - 1])
        && !(s[e - 1] == '\r' && e < |s| && s[e] == '\n'))
    || (i + 2 <= e && s[e - 2] == '\r' && s[e - 1] == '\n' && NoBreak(s[i..e - 2]))
  }

  /** The end of the line that contains position `i`: just past the first line
      break at or after `i` ("\r\n" counts as one break), or the end of `s`. */
  function LineEnd(s: string, i: nat): (e: nat)
    requires i <= |s|
    ensures i <= e <= |s|
    ensures i < |s| ==> i < e
    ensures EndsLine(s, i, e)
    decreases |s| - i
  {
    if i == |s| then i
    else if s[i] == '\r' && i + 1 < |s| && s[i + 1] == '\n' then i + 2
    else if IsLineBreak(s[i]) then i + 1
    else
      var e := LineEnd(s, i + 1);
      LineEndStep(s, i, e);
      e
  }

  /** A character that is not a line break belongs to the line after it. */
  lemma LineEndStep(s: string, i: nat, e: nat)
    requires i < |s| && !IsLineBreak(s[i])
    requires i + 1 <= e <= |s| && EndsLine(s, i + 1, e)
    ensures EndsLine(s, i, e)
  {
    assert s[i..] == [s[i]] + s[i + 1..];
    if e > i + 1 {
      assert s[i..e - 1] == [s[i]] + s[i + 1..e - 1];
    }
    if e >= i + 3 {
      assert s[i..e - 2] == [s[i]] + s[i + 1..e - 2];
    }
  }

  /** Python's `s.splitlines(keepends=True)`. */
  function SplitLines(s: string): (lines: seq<string>)
    ensures Concat(lines) == s
    ensures WellSplit(lines)
    ensures s != [] ==> lines != [] && lines[0][0] == s[0]
    decreases |s|
  {
    if s == [] then []
    else
      var e := LineEnd(s, 0);
      var rest := SplitLines(s[e..]);
      SplitLinesStep(s, e, rest);
      [s[..e]] + rest
  }

  /** The first line of `s` in front of a well-split list of the rest of `s`. */
  lemma SplitLinesStep(s: string, e: nat, rest: seq<string>)
    requires s != [] && e == LineEnd(s, 0)
    requires Concat(rest) == s[e..] && WellSplit(rest)
    requires s[e..] != [] ==> rest != [] && rest[0][0] == s[e]
    ensures Concat([s[..e]] + rest) == s
    ensures WellSplit([s[..e]] + rest)
  {
    var line := s[..e];
    assert ([line] + rest)[1..] == rest;
    assert s == line + s[e..];
    FirstLine(s, e);
    WellSplitCons(line, rest);
  }

  /** What `LineEnd` cuts off the front of a non-empty text is a line, and a
      complete one when text follows it. */
  lemma FirstLine(s: string, e: nat)
    requires s != [] && e == LineEnd(s, 0)
    ensures IsLine(s[..e])
    ensures e < |s| ==> Terminated(s[..e]) && !(s[e - 1] == '\r' && s[e] == '\n')
  {
    var line := s[..e];
    assert line[..|line| - 1] == s[..e - 1];
    assert |line| >= 2 ==> line[..|line| - 2] == s[..e - 2];
  }

  /** Dropping the first line of a well-split list leaves one. */
  lemma WellSplitTail(ls: seq<string>)
    requires ls != [] && WellSplit(ls)
    ensures WellSplit(ls[1..])
  {
    assert forall i :: 0 <= i < |ls| - 1 ==> ls[1..][i] == ls[i + 1];
  }

  /** A line in front of a well-split list that it does not run into. */
  lemma WellSplitCons(line: string, rest: seq<string>)
    requires IsLine(line) && WellSplit(rest)
    requires rest != [] ==> Terminated(line) && !SplitsCrLf(line, rest[0])
    ensures WellSplit([line] + rest)
  {
    var ls := [line] + rest;
    assert forall i :: 0 < i < |ls| ==> ls[i] == rest[i - 1];
  }

  /** Skipping a stretch free of line breaks does not move the end of the line. */
  lemma {:induction false} LineEndSkips(s: string, i: nat, j: nat)
    requires i <= j <= |s|
    requires NoBreak(s[i..j])
    ensures LineEnd(s, i) == LineEnd(s, j)
    decreases j - i
  {
    if i < j {
      assert s[i] == s[i..j][0];
      assert s[i + 1..j] == s[i..j][1..];
      LineEndSkips(s, i + 1, j);
    }
  }

  /** The first line of a well-split list ends exactly where `LineEnd` says. */
  lemma LineEndOfFirstLine(ls: seq<string>)
    requires ls != [] && WellSplit(ls)
    ensures LineEnd(Concat(ls), 0) == |ls[0]|
  {
    var l := ls[0];
    var s := Concat(ls);
    var n := |l|;
    ConcatFirst(ls);
    assert s[..n] == l;
    if n >= 2 && l[n - 2] == '\r' && l[n - 1] == '\n' && NoBreak(l[..n - 2]) {
      assert s[0..n - 2] == l[..n - 2];
      LineEndSkips(s, 0, n - 2);
      CrLfEnds(s, n);
    } else {
      assert NoBreak(l[..n - 1]);
      assert s[0..n - 1] == l[..n - 1];
      LineEndSkips(s, 0, n - 1);
      LastCharEnds(s, n);
    }
  }

  /** How a well-split list concatenates: its first line, then a text that is
      empty exactly when there is no second line and starts with that line otherwise. */
  lemma ConcatFirst(ls: seq<string>)
    requires ls != [] && WellSplit(ls)
    ensures |Concat(ls)| >= |ls[0]| && Concat(ls)[..|ls[0]|] == ls[0]
    ensures |ls| == 1 ==> Concat(ls) == ls[0]
    ensures |ls| > 1 ==> |Concat(ls)| > |ls[0]| && Concat(ls)[|ls[0]|] == ls[1][0]
    ensures Concat(ls)[|ls[0]|..] == Concat(ls[1..])
    ensures |ls| > 1 ==> Terminated(ls[0]) && !SplitsCrLf(ls[0], ls[1])
  {
    var rest := Concat(ls[1..]);
    assert Concat(ls) == ls[0] + rest;
    if |ls| > 1 {
      assert ls[1..][0] == ls[1];
      assert rest == ls[1] + Concat(ls[1..][1..]);
      assert IsLine(ls[1]);
    } else {
      assert rest == [];
    }
  }

  /** A line whose last character, at `n - 1`, is a complete terminator or the end of the text. */
  lemma LastCharEnds(s: string, n: nat)
    requires 0 < n <= |s|
    requires n == |s| || (IsLineBreak(s[n - 1]) && !(s[n - 1] == '\r' && s[n] == '\n'))
    ensures LineEnd(s, n - 1) == n
  {
  }

  /** A "\r\n" at `n - 2` ends the line just after it. */
  lemma CrLfEnds(s: string, n: nat)
    requires 2 <= n <= |s| && s[n - 2] == '\r' && s[n - 1] == '\n'
    ensures LineEnd(s, n - 2) == n
  {
  }

  /** `splitlines(keepends=True)` is the only well-split decomposition of a text:
      together with the contract of `SplitLines` this characterises it fully. */
  lemma {:induction false} SplitLinesUnique(ls: seq<string>)
    requires WellSplit(ls)
    ensures SplitLines(Concat(ls)) == ls
  {
    if ls != [] {
      LineEndOfFirstLine(ls);
      ConcatFirst(ls);
      WellSplitTail(ls);
      SplitLinesUnique(ls[1..]);
    }
  }

  /** The chunks built by the loop of `send_long_message`: `current` is the chunk
      being filled; a line that would push it past `limit` closes it, even when it
      is still empty, and starts the next one; the last chunk is kept only if
      non-empty. */
  function Pack(lines: seq<string>, current: string, limit: nat): (chunks: seq<string>)
    ensures Concat(chunks) == current + Concat(lines)
    decreases |lines|
  {
    if lines == [] then
      (if current != "" then [current] else [])
    else if |current| + |lines[0]| > limit then
      var rest := Pack(lines[1..], lines[0], limit);
      [current] + rest
    else
      var rest := Pack(lines[1..], current + lines[0], limit);
      assert (current + lines[0]) + Concat(lines[1..]) == current + (lines[0] + Concat(lines[1..]));
      rest
  }

  /** The messages `send_long_message` sends for `text`, with the limit as a parameter. */
  function Segment(text: string, limit: nat): (chunks: seq<string>)
    ensures Concat(chunks) == text
    ensures |text| <= limit ==> chunks == [text]
  {
    if |text| <= limit then [text]
    else Pack(SplitLines(text), "", limit)
  }

  /** The messages sent for a reply under `TELEGRAM_MESSAGE_LIMIT`. */
  function SendLongMessage(text: string): (chunks: seq<string>)
    ensures Concat(chunks) == text
    ensures |text| <= MessageLimit ==> chunks == [text]
  {
    Segment(text, MessageLimit)
  }

  /** The lines of a list of groups, in order. */
  function Flatten(groups: seq<seq<string>>): seq<string> {
    if groups == [] then [] else groups[0] + Flatten(groups[1..])
  }

  /** `groups` cuts `cur + lines` into the chunks that `Pack` builds from the
      partial chunk `Concat(cur)` and `lines`: chunk by chunk the same text; a
      group is over the limit only as a single line; only the first group may be
      empty; a group was closed only because the next line did not fit; the first
      group extends `cur`; and, starting from nothing, the first group is empty
      exactly when the first line alone is over the limit. */
  predicate Grouped(groups: seq<seq<string>>, lines: seq<string>, cur: seq<string>, limit: nat) {
    && Flatten(groups) == cur + lines
    && Holds(groups, Pack(lines, Concat(cur), limit))
    && Greedy(groups, limit)
    && (cur != [] ==> groups != [] && |cur| <= |groups[0]| && groups[0][..|cur|] == cur)
    && (cur == [] && lines != [] ==> groups != [] && (groups[0] == [] <==> |lines[0]| > limit))
  }

  /** One group of lines per chunk, holding exactly that chunk's text. */
  predicate Holds(groups: seq<seq<string>>, chunks: seq<string>) {
    && |groups| == |chunks|
    && forall i :: 0 <= i < |groups| ==> chunks[i] == Concat(groups[i])
  }

  /** The groups of a greedy packing: a group is over the limit only as a single
      line, only the first may be empty, and each was closed because the first
      line of the next did not fit. */
  predicate Greedy(groups: seq<seq<string>>, limit: nat) {
    && (forall i :: 0 <= i < |groups| ==> |Concat(groups[i])| <= limit || |groups[i]| == 1)
    && (forall i :: 0 < i < |groups| ==> groups[i] != [])
    && (forall i :: 0 <= i < |groups| - 1 ==> |Concat(groups[i])| + |groups[i + 1][0]| > limit)
  }

  /** The greedy packing as groups of whole lines: `cur` is the group being filled. */
  lemma {:induction false} PackGroups(lines: seq<string>, cur: seq<string>, limit: nat)
    returns (groups: seq<seq<string>>)
    requires forall i :: 0 <= i < |lines| ==> lines[i] != []
    requires forall i :: 0 <= i < |cur| ==> cur[i] != []
    requires |Concat(cur)| <= limit || |cur| == 1
    ensures Grouped(groups, lines, cur, limit)
    decreases |lines|
  {
    if lines == [] {
      ConcatNonEmpty(cur);
      groups := if Concat(cur) != "" then [cur] else [];
      assert Flatten(groups) == cur;
    } else if |Concat(cur)| + |lines[0]| > limit {
      ConcatOne(lines[0]);
      NonEmptyTail(lines);
      var rest := PackGroups(lines[1..], [lines[0]], limit);
      groups := [cur] + rest;
      PackGroupsClose(lines, cur, limit, rest);
    } else {
      var next := cur + [lines[0]];
      ConcatOne(lines[0]);
      ConcatAppend(cur, [lines[0]]);
      NonEmptyTail(lines);
      assert forall i :: 0 <= i < |next| ==> next[i] != [];
      groups := PackGroups(lines[1..], next, limit);
      PackGroupsExtend(lines, cur, limit, groups);
    }
  }

  lemma ConcatOne(l: string)
    ensures Concat([l]) == l
  {
    assert [l][1..] == [];
  }

  lemma NonEmptyTail(lines: seq<string>)
    requires lines != []
    requires forall i :: 0 <= i < |lines| ==> lines[i] != []
    ensures forall i :: 0 <= i < |lines[1..]| ==> lines[1..][i] != []
  {
    assert forall i :: 0 <= i < |lines[1..]| ==> lines[1..][i] == lines[i + 1];
  }

  /** The step of `PackGroups` that closes the group being filled. */
  lemma PackGroupsClose(lines: seq<string>, cur: seq<string>, limit: nat, rest: seq<seq<string>>)
    requires lines != [] && |Concat(cur)| + |lines[0]| > limit
    requires |Concat(cur)| <= limit || |cur| == 1
    requires Grouped(rest, lines[1..], [lines[0]], limit)
    ensures Grouped([cur] + rest, lines, cur, limit)
  {
    ConcatOne(lines[0]);
    PackCloses(lines, Concat(cur), limit);
    FlattenCons(cur, rest);
    ConsFirst(lines);
    FirstOfPrefix(rest[0], lines[0]);
    HoldsCons(cur, rest, Pack(lines[1..], lines[0], limit));
    GreedyCons(cur, rest, limit);
    ClosedHead(lines, cur, limit, rest);
  }

  lemma ClosedHead(lines: seq<string>, cur: seq<string>, limit: nat, rest: seq<seq<string>>)
    requires lines != [] && |Concat(cur)| + |lines[0]| > limit
    ensures |cur| <= |([cur] + rest)[0]| && ([cur] + rest)[0][..|cur|] == cur
    ensures cur == [] ==> (([cur] + rest)[0] == [] <==> |lines[0]| > limit)
  {
    assert ([cur] + rest)[0] == cur;
  }

  lemma HoldsCons(g: seq<string>, rest: seq<seq<string>>, chunks: seq<string>)
    requires Holds(rest, chunks)
    ensures Holds([g] + rest, [Concat(g)] + chunks)
  {
    forall i | 0 < i < |rest| + 1
      ensures ([Concat(g)] + chunks)[i] == Concat(([g] + rest)[i])
    {
      ConsIndex(Concat(g), chunks, i);
      ConsIndex(g, rest, i);
    }
  }

  lemma GreedyCons(g: seq<string>, rest: seq<seq<string>>, limit: nat)
    requires Greedy(rest, limit)
    requires |Concat(g)| <= limit || |g| == 1
    requires rest != [] && rest[0] != [] && |Concat(g)| + |rest[0][0]| > limit
    ensures Greedy([g] + rest, limit)
  {
    var groups := [g] + rest;
    assert forall i :: 0 < i < |groups| ==> groups[i] == rest[i - 1];
  }

  /** A line that does not fit closes the chunk being filled and starts the next. */
  lemma PackCloses(lines: seq<string>, current: string, limit: nat)
    requires lines != [] && |current| + |lines[0]| > limit
    ensures Pack(lines, current, limit) == [current] + Pack(lines[1..], lines[0], limit)
  {
  }

  lemma ConsFirst<T>(s: seq<T>)
    requires s != []
    ensures [s[0]] + s[1..] == s
  {
  }

  lemma ConsIndex<T>(x: T, s: seq<T>, i: nat)
    requires 0 < i <= |s|
    ensures ([x] + s)[i] == s[i - 1]
  {
  }

  lemma FlattenCons(g: seq<string>, rest: seq<seq<string>>)
    ensures Flatten([g] + rest) == g + Flatten(rest)
  {
    assert ([g] + rest)[1..] == rest;
  }

  lemma FirstOfPrefix<T>(g: seq<T>, x: T)
    requires |g| >= 1 && g[..1] == [x]
    ensures g[0] == x
  {
    assert g[0] == g[..1][0];
  }

  /** The step of `PackGroups` that adds the next line to the group being filled. */
  lemma PackGroupsExtend(lines: seq<string>, cur: seq<string>, limit: nat, groups: seq<seq<string>>)
    requires lines != [] && |Concat(cur)| + |lines[0]| <= limit
    requires Concat(cur + [lines[0]]) == Concat(cur) + lines[0]
    requires Grouped(groups, lines[1..], cur + [lines[0]], limit)
    ensures Grouped(groups, lines, cur, limit)
  {
    PackFits(lines, Concat(cur), limit);
    MoveFirst(cur, lines);
    PrefixExtends(groups[0], cur, lines[0]);
  }

  /** A line that fits is added to the chunk being filled. */
  lemma PackFits(lines: seq<string>, current: string, limit: nat)
    requires lines != [] && |current| + |lines[0]| <= limit
    ensures Pack(lines, current, limit) == Pack(lines[1..], current + lines[0], limit)
  {
  }

  lemma MoveFirst<T>(cur: seq<T>, lines: seq<T>)
    requires lines != []
    ensures (cur + [lines[0]]) + lines[1..] == cur + lines
  {
    assert lines == [lines[0]] + lines[1..];
  }

  /** A prefix `cur + [x]` of `g` has the prefix `cur`, with `x` after it. */
  lemma PrefixExtends<T>(g: seq<T>, cur: seq<T>, x: T)
    requires |cur| + 1 <= |g| && g[..|cur| + 1] == cur + [x]
    ensures g[..|cur|] == cur && g[|cur|] == x
  {
    assert g[..|cur|] == g[..|cur| + 1][..|cur|];
    assert g[|cur|] == g[..|cur| + 1][|cur|];
  }

  /** The chunks of `Segment` are whole lines grouped greedily: the groups
      flatten back to the lines of the text in order, each chunk is the text of
      its group, and the groups have the greedy shape of `Greedy`. */
  lemma SegmentGroups(text: string, limit: nat) returns (groups: seq<seq<string>>)
    ensures Flatten(groups) == SplitLines(text)
    ensures Holds(groups, Segment(text, limit))
    ensures Greedy(groups, limit)
  {
    var lines := SplitLines(text);
    if |text| <= limit {
      groups := [lines];
      SingleGroup(lines, limit);
    } else {
      assert Concat([]) == "";
      groups := PackGroups(lines, [], limit);
      assert [] + lines == lines;
    }
  }

  /** Lines that fit the limit together, taken as one group. */
  lemma SingleGroup(lines: seq<string>, limit: nat)
    requires |Concat(lines)| <= limit
    ensures Flatten([lines]) == lines
    ensures Holds([lines], [Concat(lines)])
    ensures Greedy([lines], limit)
  {
    assert [lines][1..] == [];
    assert lines + [] == lines;
  }

  /** No line is cut: every chunk is within the limit or is one whole line of the text. */
  lemma ChunkBound(text: string, limit: nat)
    ensures forall i :: 0 <= i < |Segment(text, limit)| ==>
              |Segment(text, limit)[i]| <= limit || Segment(text, limit)[i] in SplitLines(text)
  {
    var chunks := Segment(text, limit);
    var groups := SegmentGroups(text, limit);
    forall i | 0 <= i < |chunks|
      ensures |chunks[i]| <= limit || chunks[i] in SplitLines(text)
    {
      if |chunks[i]| > limit {
        assert |groups[i]| == 1;
        assert Concat(groups[i]) == groups[i][0];
        FlattenMember(groups, i, 0);
      }
    }
  }

  lemma {:induction false} FlattenMember(groups: seq<seq<string>>, i: nat, j: nat)
    requires i < |groups| && j < |groups[i]|
    ensures groups[i][j] in Flatten(groups)
  {
    if i > 0 {
      FlattenMember(groups[1..], i - 1, j);
    }
  }

  /** Every element of `splitlines` is non-empty. */
  lemma LinesNonEmpty(text: string)
    ensures forall i :: 0 <= i < |SplitLines(text)| ==> SplitLines(text)[i] != []
  {
    var lines := SplitLines(text);
    forall i | 0 <= i < |lines|
      ensures lines[i] != []
    {
      assert IsLine(lines[i]);
    }
  }

  /** The quirk of the loop: when the text is over the limit and its first line
      alone is too, the still-empty first chunk is closed and sent; the empty
      text is sent as one empty message. */
  lemma FirstChunkEmpty(text: string, limit: nat)
    ensures Segment(text, limit) != []
    ensures Segment(text, limit)[0] == "" <==>
              text == "" || (|text| > limit && |SplitLines(text)[0]| > limit)
  {
    if |text| > limit {
      var lines := SplitLines(text);
      LinesNonEmpty(text);
      assert Concat([]) == "";
      var g := PackGroups(lines, [], limit);
      FlattenNonEmpty(g, 0);
      ConcatNonEmpty(g[0]);
    }
  }

  /** Apart from the first, no chunk is ever empty. */
  lemma LaterChunksNonEmpty(text: string, limit: nat)
    ensures forall i :: 0 < i < |Segment(text, limit)| ==> Segment(text, limit)[i] != ""
  {
    var chunks := Segment(text, limit);
    var groups := SegmentGroups(text, limit);
    LinesNonEmpty(text);
    forall i | 0 < i < |chunks|
      ensures chunks[i] != ""
    {
      FlattenNonEmpty(groups, i);
      ConcatNonEmpty(groups[i]);
    }
  }

  /** The groups of a flattening of non-empty lines hold non-empty lines. */
  lemma FlattenNonEmpty(groups: seq<seq<string>>, i: nat)
    requires i < |groups|
    requires forall k :: 0 <= k < |Flatten(groups)| ==> Flatten(groups)[k] != []
    ensures forall j :: 0 <= j < |groups[i]| ==> groups[i][j] != []
  {
    forall j | 0 <= j < |groups[i]|
      ensures groups[i][j] != []
    {
      FlattenMember(groups, i, j);
    }
  }

  /** When no line is over the limit no chunk is either, so at least
      |text| / limit chunks are needed. */
  lemma ChunkCount(text: string, limit: nat)
    requires forall i :: 0 <= i < |SplitLines(text)| ==> |SplitLines(text)[i]| <= limit
    ensures forall i :: 0 <= i < |Segment(text, limit)| ==> |Segment(text, limit)[i]| <= limit
    ensures |text| <= |Segment(text, limit)| * limit
  {
    var chunks := Segment(text, limit);
    ChunkBound(text, limit);
    forall i | 0 <= i < |chunks|
      ensures |chunks[i]| <= limit
    {
      if chunks[i] in SplitLines(text) {
        var k :| 0 <= k < |SplitLines(text)| && SplitLines(text)[k] == chunks[i];
      }
    }
    ConcatLength(chunks, limit);
  }

  lemma {:induction false} ConcatLength(cs: seq<string>, limit: nat)
    requires forall i :: 0 <= i < |cs| ==> |cs[i]| <= limit
    ensures |Concat(cs)| <= |cs| * limit
  {
    if cs != [] {
      ConcatLength(cs[1..], limit);
    }
  }

  /** A 9000-character reply with no line over 4000 characters goes out as at
      least three messages. */
  lemma NineThousandCharacters(text: string)
    requires |text| == 9000
    requires forall i :: 0 <= i < |SplitLines(text)| ==> |SplitLines(text)[i]| <= MessageLimit
    ensures |SendLongMessage(text)| >= 3
  {
    ChunkCount(text, MessageLimit);
  }

  /** A reply over the limit with no line break at all goes out as two
      messages: an empty one, then the whole reply. */
  lemma OneLongLine(text: string)
    requires |text| > MessageLimit && NoBreak(text)
    ensures SendLongMessage(text) == ["", text]
  {
    assert text[..|text| - 1] == text[..|text|][..|text| - 1];
    assert IsLine(text);
    ConcatOne(text);
    SplitLinesUnique([text]);
    assert SplitLines(text) == [text];
    assert Pack([text][1..], text, MessageLimit) == [text];
  }

  /** Lines are non-empty, so a list of them concatenates to "" only when empty. */
  lemma {:induction false} ConcatNonEmpty(ls: seq<string>)
    requires forall i :: 0 <= i < |ls| ==> ls[i] != []
    ensures Concat(ls) == "" <==> ls == []
  {
    if ls != [] {
      assert |Concat(ls)| >= |ls[0]| > 0;
    }
  }
}

=== FILE: text.dfy ===
/**
 Python string primitives the bot relies on: the whitespace class shared by
 `str.isspace`, `str.split()`, `str.strip()` and the regular-expression class `\s`,
 character filtering, concatenation of a list of strings, `sep.join` and
 whitespace splitting.
 */
module Text {

  /** Python's `str.isspace()` (also what `\s`, `split()` and `strip()` use). */
  predicate IsSpace(c: char) {
    || c == ' '
    || ('\t' <= c <= '\r')
    || ('\U{1C}' <= c <= '\U{1F}')
    || c == '\U{85}'
    || c == '\U{A0}'
    || c == '\U{1680}'
    || ('\U{2000}' <= c <= '\U{200A}')
    || c == '\U{2028}'
    || c == '\U{2029}'
    || c == '\U{202F}'
    || c == '\U{205F}'
    || c == '\U{3000}'
  }

  predicate NoSpace(s: string) {
    forall i :: 0 <= i < |s| ==> !IsSpace(s[i])
  }

  predicate AllSpace(s: string) {
    forall i :: 0 <= i < |s| ==> IsSpace(s[i])
  }

  predicate NotSpace(c: char) {
    !IsSpace(c)
  }

  /** The characters of `s` that satisfy `p`, in order. */
  function Filter(p: char -> bool, s: string): (r: string)
    ensures |r| <= |s|
    ensures forall i :: 0 <= i < |r| ==> p(r[i])
  {
    if s == [] then []
    else if p(s[0]) then [s[0]] + Filter(p, s[1..])
    else Filter(p, s[1..])
  }

  lemma {:induction false} FilterAppend(p: char -> bool, a: string, b: string)
    ensures Filter(p, a + b) == Filter(p, a) + Filter(p, b)
  {
    if a != [] {
      assert (a + b)[0] == a[0];
      assert (a + b)[1..] == a[1..] + b;
      FilterAppend(p, a[1..], b);
    } else {
      assert a + b == b;
    }
  }

  /** Filtering keeps a string none of whose characters is rejected. */
  lemma {:induction false} FilterKeepsAll(p: char -> bool, s: string)
    requires forall i :: 0 <= i < |s| ==> p(s[i])
    ensures Filter(p, s) == s
  {
    if s != [] {
      FilterKeepsAll(p, s[1..]);
    }
  }

  /** Two predicates that agree on every character of `s` filter it alike. */
  lemma {:induction false} FilterAgree(p: char -> bool, q: char -> bool, s: string)
    requires forall i :: 0 <= i < |s| ==> p(s[i]) == q(s[i])
    ensures Filter(p, s) == Filter(q, s)
  {
    if s != [] {
      FilterAgree(p, q, s[1..]);
    }
  }

  /** `"".join(ss)`. */
  function Concat(ss: seq<string>): string {
    if ss == [] then "" else ss[0] + Concat(ss[1..])
  }

  lemma {:induction false} ConcatAppend(a: seq<string>, b: seq<string>)
    ensures Concat(a + b) == Concat(a) + Concat(b)
  {
    if a != [] {
      assert (a + b)[0] == a[0];
      assert (a + b)[1..] == a[1..] + b;
      ConcatAppend(a[1..], b);
    } else {
      assert a + b == b;
    }
  }

  /** `sep.join(ss)`: the strings in order with one `sep` between each two. */
  function Join(sep: string, ss: seq<string>): (r: string)
    ensures ss == [] ==> r == []
    ensures ss != [] ==> |r| == |Concat(ss)| + (|ss| - 1) * |sep|
    ensures ss != [] ==> r[..|ss[0]|] == ss[0]
  {
    if ss == [] then ""
    else if |ss| == 1 then ss[0]
    else ss[0] + sep + Join(sep, ss[1..])
  }

  /** Appending a string to a non-empty list adds one separator and the
      string: with the joins of no string and of one string, this fixes where
      every separator goes. */
  lemma {:induction false} JoinSnoc(sep: string, ss: seq<string>, x: string)
    requires ss != []
    ensures Join(sep, ss + [x]) == Join(sep, ss) + sep + x
    decreases |ss|
  {
    if |ss| == 1 {
      assert (ss + [x])[1..] == [x];
    } else {
      assert (ss + [x])[1..] == ss[1..] + [x];
      JoinSnoc(sep, ss[1..], x);
    }
  }

  /** Joining with the empty separator is `"".join`. */
  lemma {:induction false} JoinWithoutSeparator(ss: seq<string>)
    ensures Join("", ss) == Concat(ss)
  {
    if |ss| > 1 {
      JoinWithoutSeparator(ss[1..]);
      assert ss[0] + "" == ss[0];
    } else if |ss| == 1 {
      assert ss[1..] == [];
      assert ss[0] + "" == ss[0];
    }
  }

  /** A word of `str.split()`: a non-empty run of non-whitespace characters. */
  predicate IsWord(w: string) {
    w != [] && NoSpace(w)
  }

  /** The length of the run of non-whitespace characters that starts `s`. */
  function WordLength(s: string): (k: nat)
    ensures k <= |s|
    ensures NoSpace(s[..k])
    ensures k < |s| ==> IsSpace(s[k])
  {
    if s == [] || IsSpace(s[0]) then 0
    else
      var k := 1 + WordLength(s[1..]);
      assert s[..k] == [s[0]] + s[1..][..k - 1];
      k
  }

  /** Python's `s.split()` with no arguments: the maximal runs of non-whitespace. */
  function Words(s: string): (ws: seq<string>)
    ensures forall i :: 0 <= i < |ws| ==> IsWord(ws[i])
    ensures Concat(ws) == Filter(NotSpace, s)
    ensures ws == [] <==> AllSpace(s)
    decreases |s|
  {
    if s == [] then []
    else if IsSpace(s[0]) then Words(s[1..])
    else
      var k := WordLength(s);
      assert s == s[..k] + s[k..];
      FilterAppend(NotSpace, s[..k], s[k..]);
      FilterKeepsAll(NotSpace, s[..k]);
      [s[..k]] + Words(s[k..])
  }

  /** Splitting a space-joined list of words gives the words back. */
  lemma {:induction false} WordsOfJoin(ws: seq<string>)
    requires forall i :: 0 <= i < |ws| ==> IsWord(ws[i])
    ensures Words(Join(" ", ws)) == ws
  {
    if ws == [] {
    } else if |ws| == 1 {
      WordsOfWord(ws[0], "");
      assert ws[0] + "" == ws[0];
    } else {
      var rest := Join(" ", ws[1..]);
      assert Join(" ", ws) == ws[0] + (" " + rest);
      WordsOfWord(ws[0], " " + rest);
      assert (" " + rest)[1..] == rest;
      WordsOfJoin(ws[1..]);
    }
  }

  /** A word followed by nothing or by whitespace is split off whole. */
  lemma WordsOfWord(w: string, rest: string)
    requires IsWord(w)
    requires rest == [] || IsSpace(rest[0])
    ensures Words(w + rest) == [w] + Words(rest)
  {
    var s := w + rest;
    WordLengthOfWord(w, rest);
    assert s[..|w|] == w && s[|w|..] == rest;
  }

  /** What `split()` does, one word at a time: whitespace in front is skipped,
      and a whole word followed by whitespace or by nothing comes out first.
      With `Words(s) == []` exactly for blank `s`, this fixes every result. */
  lemma WordsSplitOff(sp: string, w: string, rest: string)
    requires AllSpace(sp) && IsWord(w)
    requires rest == [] || IsSpace(rest[0])
    ensures Words(sp + w + rest) == [w] + Words(rest)
  {
    Associative(sp, w, rest);
    WordsSkipLeading(sp, w + rest);
    WordsOfWord(w, rest);
  }

  lemma {:induction false} WordLengthOfWord(w: string, rest: string)
    requires NoSpace(w)
    requires rest == [] || IsSpace(rest[0])
    ensures WordLength(w + rest) == |w|
  {
    if w != [] {
      assert (w + rest)[1..] == w[1..] + rest;
      WordLengthOfWord(w[1..], rest);
    }
  }

  /** The first `n` elements of `s`, or all of them (`s[:n]`). */
  function Take<T>(s: seq<T>, n: nat): (r: seq<T>)
    ensures |r| == if |s| < n then |s| else n
    ensures forall i :: 0 <= i < |r| ==> r[i] == s[i]
  {
    if |s| <= n then s else s[..n]
  }

  /** The suffix left after dropping the characters satisfying `p` from the front. */
  function TrimLeft(s: string, p: char -> bool): (r: string)
    ensures |r| <= |s| && r == s[|s| - |r|..]
    ensures forall i :: 0 <= i < |s| - |r| ==> p(s[i])
    ensures r == [] || !p(r[0])
  {
    if s != [] && p(s[0]) then
      var r := TrimLeft(s[1..], p);
      TrimLeftStep(s, r, p);
      r
    else s
  }

  /** Dropping one more leading character that satisfies `p`. */
  lemma TrimLeftStep(s: string, r: string, p: char -> bool)
    requires s != [] && p(s[0])
    requires |r| <= |s| - 1 && r == s[1..][|s| - 1 - |r|..]
    requires forall i :: 0 <= i < |s| - 1 - |r| ==> p(s[1..][i])
    ensures r == s[|s| - |r|..]
    ensures forall i :: 0 <= i < |s| - |r| ==> p(s[i])
  {
    assert s[1..][|s| - 1 - |r|..] == s[|s| - |r|..];
    forall i | 0 < i < |s| - |r|
      ensures p(s[i])
    {
      assert s[i] == s[1..][i - 1];
    }
  }

  /** The prefix left after dropping the characters satisfying `p` from the back. */
  function TrimRight(s: string, p: char -> bool): (r: string)
    ensures |r| <= |s| && r == s[..|r|]
    ensures forall i :: |r| <= i < |s| ==> p(s[i])
    ensures r == [] || !p(r[|r| - 1])
  {
    if s != [] && p(s[|s| - 1]) then
      var r := TrimRight(s[..|s| - 1], p);
      assert s[..|s| - 1][..|r|] == s[..|r|];
      r
    else s
  }

  /** How many characters satisfying `p` start `s`. */
  function LeadingRun(s: string, p: char -> bool): (n: nat)
    ensures n <= |s|
    ensures forall i :: 0 <= i < n ==> p(s[i])
    ensures n < |s| ==> !p(s[n])
  {
    |s| - |TrimLeft(s, p)|
  }

  /** Python's `s.strip(chars)` where `p` says which characters are stripped:
      the infix of `s` that starts at its first kept character and ends at its last. */
  function Trim(s: string, p: char -> bool): (r: string)
    ensures r == [] || (!p(r[0]) && !p(r[|r| - 1]))
    ensures LeadingRun(s, p) + |r| <= |s|
    ensures r == s[LeadingRun(s, p)..LeadingRun(s, p) + |r|]
    ensures forall i :: LeadingRun(s, p) + |r| <= i < |s| ==> p(s[i])
  {
    TrimRight(TrimLeft(s, p), p)
  }

  /** Python's `s.strip()`. */
  function Strip(s: string): (r: string)
    ensures r == [] || (!IsSpace(r[0]) && !IsSpace(r[|r| - 1]))
    ensures LeadingRun(s, IsSpace) + |r| <= |s|
    ensures r == s[LeadingRun(s, IsSpace)..LeadingRun(s, IsSpace) + |r|]
    ensures AllSpace(s[..LeadingRun(s, IsSpace)])
    ensures AllSpace(s[LeadingRun(s, IsSpace) + |r|..])
  {
    var r := Trim(s, IsSpace);
    SpaceAround(s, LeadingRun(s, IsSpace), LeadingRun(s, IsSpace) + |r|);
    r
  }

  /** Whitespace before `lo` and from `hi` on makes both of those slices blank. */
  lemma SpaceAround(s: string, lo: nat, hi: nat)
    requires lo <= hi <= |s|
    requires forall i :: 0 <= i < lo ==> IsSpace(s[i])
    requires forall i :: hi <= i < |s| ==> IsSpace(s[i])
    ensures AllSpace(s[..lo]) && AllSpace(s[hi..])
  {
    assert forall i :: 0 <= i < |s[hi..]| ==> s[hi..][i] == s[hi + i];
  }

  /** `strip()` empties exactly the blank strings. */
  lemma StripBlank(s: string)
    ensures AllSpace(s) <==> Strip(s) == []
  {
    var n := LeadingRun(s, IsSpace);
    var r := Strip(s);
    if r == [] {
      assert s == s[..n] + s[n..];
    } else {
      assert s[n] == r[0];
    }
  }

  /** A string is its part before `lo`, its part from `lo` to `hi`, and the rest. */
  lemma SplitThree(s: string, lo: nat, hi: nat)
    requires lo <= hi <= |s|
    ensures s == s[..lo] + s[lo..hi] + s[hi..]
  {
  }

  /** The whitespace `TrimLeft` drops from the front of `s`. */
  lemma LeadingSpace(s: string) returns (sp: string)
    ensures s == sp + TrimLeft(s, IsSpace) && AllSpace(sp)
  {
    var t := TrimLeft(s, IsSpace);
    sp := s[..|s| - |t|];
    assert s == sp + t;
  }

  /** Leading whitespace does not change the words. */
  lemma {:induction false} WordsSkipLeading(sp: string, t: string)
    requires AllSpace(sp)
    ensures Words(sp + t) == Words(t)
  {
    if sp == [] {
      assert sp + t == t;
    } else {
      assert (sp + t)[1..] == sp[1..] + t;
      WordsSkipLeading(sp[1..], t);
    }
  }

  lemma {:induction false} WordsParts(pre: string, m: string, post: string)
    requires AllSpace(pre) && AllSpace(post)
    ensures Words(pre + m + post) == Words(m)
  {
    WordsSkipLeading(pre, m + post);
    WordsDropTrailing(m, post);
    Associative(pre, m, post);
  }

  /** Trailing whitespace does not change the words. */
  lemma {:induction false} WordsDropTrailing(t: string, sp: string)
    requires AllSpace(sp)
    ensures Words(t + sp) == Words(t)
    decreases |t|
  {
    if t == [] {
      assert t + sp == sp;
      WordsSkipLeading(sp, []);
      assert sp + [] == sp;
    } else if IsSpace(t[0]) {
      assert (t + sp)[1..] == t[1..] + sp;
      WordsDropTrailing(t[1..], sp);
    } else {
      var k := WordLength(t);
      WordLengthUpToSpace(t, sp);
      assert (t + sp)[..k] == t[..k];
      assert (t + sp)[k..] == t[k..] + sp;
      WordsDropTrailing(t[k..], sp);
    }
  }

  lemma WordLengthUpToSpace(t: string, sp: string)
    requires AllSpace(sp)
    ensures WordLength(t + sp) == WordLength(t)
  {
    var k := WordLength(t);
    SpaceAfterWord(t, sp);
    WordLengthOfWord(t[..k], t[k..] + sp);
    CutAt(t, k, sp);
  }

  /** After the first word comes whitespace or nothing, even with whitespace appended. */
  lemma SpaceAfterWord(t: string, sp: string)
    requires AllSpace(sp)
    ensures t[WordLength(t)..] + sp == [] || IsSpace((t[WordLength(t)..] + sp)[0])
  {
  }

  lemma CutAt(t: string, k: nat, sp: string)
    requires k <= |t|
    ensures t[..k] + (t[k..] + sp) == t + sp
  {
    assert t == t[..k] + t[k..];
  }

  lemma Associative(x: string, y: string, z: string)
    ensures x + (y + z) == (x + y) + z
  {
  }
}

=== FILE: wrappers.dfy ===
/** Failure-carrying result types shared by the model. */
module Wrappers {

  /** A value that may be absent (Python's `None`). */
  datatype Option<+T> = None | Some(value: T)

  /** The outcome of an operation that either yields a value or raises. */
  datatype Result<+R, +E> = Success(value: R) | Failure(error: E)
}
